=== FILE: README.md ===
# Comsoc attendance — a Dafny model of the attendance core

The modelled program is a desktop attendance tracker for a student society.
Students are kept in a MySQL `Students` table. Organisers create **events**.
Under an event they create **attendance records** (one per session). Creating
a record takes a snapshot of the whole roster into the `Attendance` table, one
row per student, each marked `Absent`. A QR scanner then reads a student id
from a code and marks that student `Present` in the current event, stamped
with the time of the scan. The main window lets a user pick the current event
and record by name, create events and records, change a status through a
drop-down, and filter the attendance list by a search text and a status.

The model keeps the four tables as immutable sequences (`Tables.Db`). Every
database call is a pure function from one database value to the next.

- `text.dfy` (`Text`): Python's `str.strip()` (with Python's white-space
  set), `str.lower()` on ASCII letters, and the substring test `in`.
- `tables.dfy` (`Tables`): rows, the database value, and `Wf`, the schema's
  constraints. Those are the primary keys, the foreign keys, the unique key
  on (record_id, student_id), and AUTO_INCREMENT counters starting at 1.
- `roster.dfy` (`Roster`): `add_student`, the INSERT IGNORE bulk imports
  (CSV and sample data), `initialize_data`, `get_student_by_id`.
- `lifecycle.dfy` (`Lifecycle`): `create_event`, `create_attendance_record`
  with its roster snapshot, and the three read queries.
- `marking.dfy` (`Marking`): the event-wide status update behind the scanner
  and `mark_student_present`, and the window's record-scoped update.
- `search.dfy` (`Search`): the attendance-table filter and the masterlist
  filter.
- `window.dfy` (`Window`): the window's current event and record, the
  blank-name guards, the lookups by name, and which rows the filter shows.
- `scanner.dfy` (`Scanner`): camera start and stop, the frame loop and the
  handling of one decoded QR payload.

Parameters stand in for what the program gets from outside. `now` and
`today` are the clocks (`NOW()` and `datetime.now().date()`). The decoded
payloads and whether a frame could be read come from the camera. A
`SnapshotFault` says where, if anywhere, a database error strikes during
`create_attendance_record`.

Behaviour of the code that a reader might not expect; the model follows the
code in each case:

- The scanner marks any stripped payload with no check that the student
  exists and no debounce. An unknown id changes no row, yet the status line
  still reports it as marked Present.
- The scan updates the student's row in **every** record of the current
  event, not only the record on screen (`Marking.EventUpdateIsPerRecordUpdates`).
- The connection runs in autocommit mode, so the snapshot is not atomic. A
  failure part-way leaves the record and the rows inserted so far, and the
  call returns None.
- If reading the roster fails, `get_all_students` swallows the error and
  returns an empty list. The record is then created with no rows and its id
  is returned.
- `create_event` accepts any name, blank ones included. Only the window
  refuses a blank name.
- Opening an event's records by name does not clear the current record. The
  attendance filter prefers the current record, so it can go on showing a
  record of the previously opened event.
- Looking up an event or record by name takes the first match in table
  order. A later event with the same name cannot be opened by name.
- The window tests its current ids by Python truthiness, so None and 0 both
  count as unset (`Window.IsSet`).

## Model

| member | source | states |
|---|---|---|
| `Text.Strip` | main_app.py:366 | the result has no white space at either end and is no longer than the input |
| `Text.StripShape` | main_app.py:366 | what strip keeps is an unchanged infix of the input, and everything cut from either end is white space |
| `Text.StripEmptyIffBlank` | main_app.py:366-367 | the stripped name is empty exactly when the typed text is all white space |
| `Text.StripIdempotent` | camera_scanner.py:85 | stripping a stripped id changes nothing |
| `Text.StripPadded` | camera_scanner.py:85 | white space before or after a text does not change what strip returns |
| `Text.Lower` | main_app.py:205 | lowercasing keeps the length, changes exactly the upper-case ASCII letters, and turns each into the same letter in lower case |
| `Text.EmptyOccursEverywhere` | main_app.py:218-224 | the empty search text occurs in every field, so an empty search box matches every row |
| `Text.Contains` | main_app.py:220 | Python's substring test `needle in haystack`: a needle longer than the haystack never occurs, and every string occurs in itself |
| `Tables.StatusName` | database.py:70 | each status is spelled as one of the configured status options |
| `Tables.StatusNamesAreTheDomain` | config.py:54 | the configured options are exactly the three statuses, each spelled differently |
| `Tables.EmptyDbWf` | database.py:32-75 | a freshly created schema satisfies every key and foreign-key constraint |
| `Tables.Wf` | database.py:37-75 | in a database meeting the schema, the next event and record ids are unused, and no two attendance rows share a (record, student) key |
| `Roster.InsertIgnore` | database.py:93-96 | INSERT IGNORE appends a student with a new id and drops one whose id is taken, keeping ids distinct |
| `Roster.AddStudent` | database.py:224-236 | the plain INSERT succeeds exactly when the id is new; on failure nothing changes; the schema's constraints are kept |
| `Roster.InsertAllIgnore` | database.py:91-96 | a run of INSERT IGNOREs only appends and keeps ids distinct |
| `Roster.InsertAllIgnoreIds` | database.py:91-96 | after a bulk INSERT IGNORE the ids are the old ids plus the imported ones |
| `Roster.InsertAllIgnoreFromNews` | database.py:91-96 | every student a bulk import appends comes from the imported list |
| `Roster.InsertAllIgnoreFirstWins` | database.py:91-96 | for a new id, the first imported student with that id is the one stored |
| `Roster.GrowRosterWf` | database.py:37-43 | appending students with distinct ids keeps the schema's constraints |
| `Roster.InsertAllIgnoreKnown` | database.py:91-96 | importing students whose ids are all present changes nothing |
| `Roster.CsvStudents` | database.py:91-96 | the students described by the CSV rows with at least four fields, one per such row, in file order |
| `Roster.ImportStudentsFromCsv` | database.py:84-101 | over the rows the CSV reader yields, the header row is skipped; the result is True exactly when the file has a row; ids become old ids plus the described ones; every appended student is a described one, and for an id that was new the first student described with it is stored; other tables are untouched |
| `Roster.InsertAllIgnoreFresh` | database.py:91-96 | importing new, distinct ids appends them all in file order |
| `Roster.ImportSampleData` | database.py:238-250 | after the sample import every sample id is on the roster and the other tables are untouched; the roster only grows, every appended student is one of the sample students, and every sample student whose id was new is stored exactly as configured, on any starting roster |
| `Roster.ImportSampleDataFacts` | config.py:45-51 | the sample import is idempotent, and into an empty roster it yields exactly the sample, in order |
| `Roster.InitializeData` | main_app.py:62-65 | the sample roster is loaded only when the Students table is empty |
| `Roster.GetStudentById` | database.py:214-222 | a student is found exactly when the id is on the roster; the found student carries that id and is unique under distinct ids |
| `Lifecycle.CreateEvent` | database.py:123-134 | the event is appended, dated today, under a fresh id of at least 1; nothing else changes |
| `Lifecycle.CreateEventIdsDiffer` | database.py:123-134 | two events created in turn get different ids |
| `Lifecycle.Snapshot` | database.py:145-150 | one row per student, in roster order, each under the new record id with the student's id, name, year and course copied, Absent and without a timestamp; distinct student ids give distinct (record, student) keys |
| `Lifecycle.CreateAttendanceRecord` | database.py:136-156 | an id is returned exactly when the event exists and no insert failed; without the event, or when the record insert fails, nothing changes; rows are only appended; once the event exists and the record insert succeeds, exactly one record (next id, given name, event and timestamp) is appended and the record counter advances by one, even if a later attendance insert fails; the new id is fresh and the constraints are kept |
| `Lifecycle.SnapshotKeepsWf` | database.py:63-75 | a fresh record plus snapshot rows for part of the roster keeps every constraint, the unique key included |
| `Lifecycle.EntriesWhere` | database.py:183-190 | the entries of the selected rows, one per selected row, in table order |
| `Lifecycle.EntriesWhereAppend` | database.py:183-190 | selecting from appended rows is selecting from each part, in order |
| `Lifecycle.EntriesWhereAll` | database.py:183-190 | selecting every row returns all entries, in order |
| `Lifecycle.GetStudentsForRecord` | database.py:183-193 | the entries of the rows of that record, one per row, in table order |
| `Lifecycle.GetAttendanceForEvent` | database.py:158-169 | the entries of the rows whose record belongs to the event, one per row, in table order |
| `Lifecycle.GetRecordsForEvent` | database.py:171-181 | the records of that event, each once, in table order; a missing event id matches none |
| `Lifecycle.SnapshotContents` | database.py:136-156 | a fault-free creation returns the fresh id, and the new record shows the whole roster, each student Absent with no timestamp |
| `Lifecycle.SnapshotVisible` | database.py:136-156 | whatever the fault, the new record shows exactly the inserted prefix of the snapshot |
| `Lifecycle.NoneKept` | database.py:183-190 | when no row is selected, nothing is returned |
| `Lifecycle.PartialSnapshotRemains` | database.py:144-156 | a failure at row k returns None but leaves the record and its first k rows |
| `Lifecycle.EmptySnapshotOnRosterReadFailure` | database.py:103-111 | when the roster read fails, the record is created empty and its id is returned |
| `Lifecycle.SnapshotLeavesOtherRecords` | database.py:136-156 | creating a record never changes what another record shows |
| `Marking.UpdateAttendanceStatus` | database.py:195-208 | exactly the rows of the student in the event's records get the status and the time; the rest are untouched; the call reports True; the constraints are kept |
| `Marking.RestampKeepsWf` | database.py:195-208 | replacing rows by the same students' rows keeps every constraint |
| `Marking.MarkStudentPresent` | database.py:210-212 | exactly the student's rows in the event become Present, stamped now; the rest are untouched |
| `Marking.UpdateAgainOverwrites` | database.py:195-208 | a second update of the same student and event overwrites the first |
| `Marking.UpdateWithoutMatchIsNoOp` | database.py:195-208 | when no row matches, the update changes nothing and still reports True |
| `Marking.UpdateStatusForRecord` | main_app.py:189-201 | exactly the row keyed by (record, student) gets the status and the time; the rest are untouched |
| `Marking.RecordUpdateTouchesAtMostOneRow` | database.py:74 | because of the unique key, the record-scoped update changes at most one row |
| `Marking.UpdateRecords` | main_app.py:189-201 | record-scoped updates never add, remove or reorder rows |
| `Marking.UpdateRecordsRows` | main_app.py:189-201 | updating each record of a list restamps exactly the student's rows in those records |
| `Marking.InEventIffListed` | database.py:162-165 | a row's record belongs to the event exactly when its id is among the ids of the event's records |
| `Marking.EventUpdateIsPerRecordUpdates` | database.py:195-208 | the event-wide update equals the record-scoped update applied to every record of the event |
| `Search.MatchesSearch` | main_app.py:219-224 | the four-field search test: searching for a whole field, in any case, finds the row, and a needle longer than all four fields finds nothing |
| `Search.MatchesStatus` | main_app.py:226-227 | "All Statuses" admits every status, a status name admits exactly the status it names, and any other filter text admits none |
| `Search.Keeps` | main_app.py:219-229 | an entry is kept when both tests pass: with a blank search only the status test remains, with "All Statuses" only the search test remains |
| `Search.KeepMatching` | main_app.py:216-229 | the entries that pass both tests, one per passing input entry, in input order |
| `Search.FilterAttendance` | main_app.py:203-229 | an entry is shown exactly when the lowered search text occurs in one of its four lowered fields and the status filter admits it; shown entries keep their order and multiplicity |
| `Search.FilterAttendanceIsSubsequence` | main_app.py:216-229 | the filtered list keeps the table's order and adds nothing |
| `Search.KeepMatchingIsSubsequence` | main_app.py:216-229 | the kept entries are a subsequence of the input |
| `Search.SearchIgnoresInputCase` | main_app.py:205 | two search texts that lowercase alike show the same rows |
| `Search.EmptyFilterKeepsAll` | ui_pages.py:258 | an empty search under "All Statuses" shows every entry |
| `Search.KeepStudents` | main_app.py:271-281 | the students that match the search, one per matching input student, in input order |
| `Search.FilterMasterlist` | main_app.py:265-281 | a student is shown exactly when the lowered search text occurs in one of its four lowered fields; shown students keep their order and multiplicity |
| `Search.SearchAgreesWithMasterlist` | main_app.py:265-281 | on a fresh snapshot, the attendance search and the masterlist search select the same students in the same order |
| `Window.AddEvent` | main_app.py:364-373 | a blank name changes nothing and warns; otherwise the database becomes exactly what `create_event` makes of the stripped name and today's date, one event appended |
| `Window.AddAttendanceRecord` | main_app.py:375-384 | success is shown exactly when the stripped name is not blank and an event is current, and the database is then what `create_attendance_record` leaves (whatever it reported); otherwise nothing changes |
| `Window.FindEventByName` | main_app.py:401-406 | the id of the first event with that name, or none when no event has it |
| `Window.FindRecordByName` | main_app.py:421-426 | the id of the first record with that name, or none when no record has it |
| `Window.ViewEventRecords` | main_app.py:397-415 | the first event with that name becomes current and the current record is kept; with no such event nothing changes |
| `Window.ViewRecordStudents` | main_app.py:417-435 | when the current event has a record with that name (in a database meeting the schema), the first such record in table order becomes current; otherwise nothing changes and a warning is shown |
| `Window.FoundIsFirst` | main_app.py:421-426 | the lookup among an event's records finds something exactly when the event has a record of that name, and then the first one |
| `Window.FindRecordInEvent` | main_app.py:421-426 | the lookup lands on the first record of the event with that name |
| `Window.AttendanceView` | main_app.py:203-229 | the table shows the rows of the current record if one is set, else of the current event's records, that pass the search and the status filter: one entry per such row, in table order; with neither set the table is left alone |
| `Window.FilterSelection` | main_app.py:208-229 | filtering the rows a query selected is one selection, in table order, of the rows that pass both tests at once |
| `Window.RecordViewRows` | main_app.py:208-229 | under a current record, the table shows that record's rows that pass both tests, in table order |
| `Window.EventViewRows` | main_app.py:208-229 | under a current event alone, the table shows the rows of the event's records that pass both tests, in table order |
| `Window.BlankSearchShowsContext` | main_app.py:203-214 | a blank search under "All Statuses" shows the current context's rows unfiltered |
| `Window.DuplicateEventNameOpensFirst` | main_app.py:401-406 | of two events with the same name, the later one is never opened |
| `Scanner.IsCameraActive` | camera_scanner.py:98-100 | the camera is active exactly when there is a capture handle and it opened |
| `Scanner.StartCamera` | camera_scanner.py:25-31 | the camera is active exactly when the capture opens; the timer starts only then; otherwise the status shows the error |
| `Scanner.StopCamera` | camera_scanner.py:33-38 | afterwards the camera is inactive, the timer stopped, the handle dropped |
| `Scanner.ProcessQrCode` | camera_scanner.py:82-96 | exactly the stripped id's rows in the current event become Present, stamped now; the status reports the scan; the current event and record stay |
| `Scanner.ProcessAll` | camera_scanner.py:51-66 | a frame's codes are handled in order and the status reports the last one |
| `Scanner.UpdateFrame` | camera_scanner.py:40-69 | nothing changes unless the camera is active and the frame was read; then every code decoded from the frame is processed in order, as `Scanner.ProcessAll` states (so `Scanner.ProcessAllRows` applies) and the status line shows the last code; the capture, timer, current context and every table but Attendance never change, and the constraints are kept |
| `Scanner.ProcessAllRows` | camera_scanner.py:51-66 | a frame marks Present exactly the rows of the event whose student one of its codes names |
| `Scanner.PaddedPayloadScansAlike` | camera_scanner.py:85 | a payload with white space around it acts like the bare id |
| `Scanner.RescanRefreshesTimestamp` | camera_scanner.py:82-96 | scanning the same code again leaves the table as the later scan alone would |
| `Scanner.ScanWithoutEventChangesNoRow` | camera_scanner.py:87-91 | with no current event a scan changes nothing, yet the status reports the student as marked |
| `Scanner.UnknownStudentScanChangesNoRow` | camera_scanner.py:85-87 | a code naming a student without rows changes nothing |
| `Scanner.StoppedCameraIgnoresFrames` | camera_scanner.py:17-42 | a scanner not yet started, a stopped camera, or one whose capture did not open, handles no frame |

## Left out

- The PyQt widgets, pages, tables, message boxes and window switching. Only the state they read or change is modelled.
- `view_event_attendance` (main_app.py:386-395): no signal is connected to it; the events table's double-click calls `view_event_records` (ui_pages.py:94). Were it called, it would apply `int()` to column 0 (main_app.py:388), which holds the event name (main_app.py:96), and raise `ValueError` for an ordinary name.
- Populating the tables, the drop-downs and their signal wiring. The status update each drop-down fires is modelled by `Marking.UpdateAttendanceStatus` and `Marking.UpdateStatusForRecord`.
- Excel export and QR-code image generation: file output only.
- `Scanner.ProcessAll`: all codes of one frame share one clock reading `now`. The program runs a separate `UPDATE … NOW()` per code, with a table refresh in between, so rows hit by a later code of the same frame can get a later time.
- The 2-second timer that resets the status line to `Scanner.ReadyText`, and the 30 ms frame timer's timing: only the order of events is modelled.
- OpenCV capture, pyzbar decoding, hull drawing and frame display. A frame is a flag saying whether it was read and the list of decoded payloads.
- UTF-8 decoding errors in the payload, and the scanner's `except` branch: payloads are already strings, and the database calls catch their own errors.
- Opening the CSV file: the import works on the rows the CSV reader yields.
- `Roster.ImportStudentsFromCsv`: does not model a read error after the header, such as a decoding error in a later chunk or a `csv.Error`. `except Exception` (database.py:99-101) catches it and the call returns False. Under autocommit the students inserted before it stay, so False does not always mean that nothing was imported.
- Connection setup and closing, table creation failures, and configuration from the environment.
- Database errors on single-statement calls (`create_event`, the updates, the read queries, the plain insert other than its key clash). Only the errors of the multi-statement snapshot are modelled.
- MySQL collation, VARCHAR lengths and strict mode. Ids compare as exact strings.
- Row order of SELECTs without ORDER BY: taken as insertion order.
- AUTO_INCREMENT ids are a counter without gaps that a failed insert does not advance. InnoDB uses up a value on a failed insert too, so real ids can skip numbers. The properties here need ids to be fresh and at least 1, not consecutive.
- `Text.Lower`: lowercases ASCII letters only, not Python's full Unicode `str.lower()`.
- The `attendance_id` and `created_at` columns that no query reads. `ON DELETE CASCADE` is left out too, since nothing deletes.
- `Lifecycle.CreateEvent`: never fails. A `create_event` that raised would return None, and `add_event` ignores the result anyway.
- Scripts and tests around the core (`run.py`, `setup_database.py`, `view_database.py`, `test_*.py`).

=== FILE: lifecycle.dfy ===
/** Events and attendance records: creating them, the roster snapshot taken
    when a record is created, and the read queries over the Attendance
    table. The connection runs in autocommit mode, so every INSERT of the
    snapshot is committed on its own and a failure part-way through leaves
    the rows already inserted in place. */
module Lifecycle {
  import opened Tables

  /** `create_event`: inserts an event dated `today` under the next
      AUTO_INCREMENT id and returns that id. Any name is accepted here. */
  function CreateEvent(db: Db, name: string, today: Date): (r: Step<nat>)
    ensures r.db.events == db.events + [Event(r.result, name, today)]
    ensures Wf(db) ==> 1 <= r.result && r.result !in EventIds(db.events)
    ensures r.db.students == db.students && r.db.records == db.records && r.db.attendance == db.attendance
    ensures r.db.nextRecordId == db.nextRecordId
    ensures Wf(db) ==> Wf(r.db)
  {
    var id := db.nextEventId;
    Step(db.(events := db.events + [Event(id, name, today)], nextEventId := id + 1), id)
  }

  /** Two events created one after the other get different ids. */
  lemma CreateEventIdsDiffer(db: Db, n1: string, n2: string, d1: Date, d2: Date)
    requires Wf(db)
    ensures CreateEvent(db, n1, d1).result != CreateEvent(CreateEvent(db, n1, d1).db, n2, d2).result
  {
    var first := CreateEvent(db, n1, d1);
    assert Event(first.result, n1, d1) in first.db.events;
  }

  /** Where, if anywhere, `create_attendance_record` hits a database error:
      the record INSERT itself; the roster read (which `get_all_students`
      swallows, handing back an empty list); or the INSERT of the snapshot row
      with the given position in the roster. */
  datatype SnapshotFault = NoFault | RecordInsertFails | RosterReadFails | RowInsertFails(row: nat)

  predicate HasEvent(db: Db, eid: nat) {
    eid in EventIds(db.events)
  }

  /** The Attendance rows the snapshot inserts for `students`: each one
      `Absent`, with no timestamp, carrying a copy of the student's name,
      year level and course. */
  function Snapshot(rid: nat, students: seq<Student>): (r: seq<Row>)
    ensures |r| == |students|
    ensures forall i :: 0 <= i < |r| ==>
              && r[i].recordId == rid
              && r[i].entry.studentId == students[i].id && r[i].entry.fname == students[i].fname
              && r[i].entry.yearLevel == students[i].yearLevel && r[i].entry.course == students[i].course
              && r[i].entry.status == Absent && r[i].entry.timestamp == None
    ensures DistinctStudentIds(students) ==> UniqueKeys(r)
  {
    seq(|students|, i requires 0 <= i < |students| => Row(rid, AbsentEntry(students[i])))
  }

  /** How many snapshot rows get inserted before the fault strikes. */
  function RowsInserted(fault: SnapshotFault, rosterSize: nat): (n: nat)
    ensures n <= rosterSize
  {
    match fault
    case RowInsertFails(k) => if k < rosterSize then k else rosterSize
    case _ => rosterSize
  }

  /** `create_attendance_record`: inserts the record (whose foreign key
      demands an existing event), reads the roster and inserts one snapshot
      row per student. Returns the new record id, or None when an error was
      raised; rows committed before the error stay. */
  function CreateAttendanceRecord(db: Db, name: string, eid: nat, now: Time, fault: SnapshotFault)
    : (r: Step<Option<nat>>)
    ensures r.db.students == db.students && r.db.events == db.events && r.db.nextEventId == db.nextEventId
    ensures db.attendance <= r.db.attendance
    ensures r.result.Some? <==>
              HasEvent(db, eid) && !fault.RecordInsertFails? && !(fault.RowInsertFails? && fault.row < |db.students|)
    ensures (!HasEvent(db, eid) || fault.RecordInsertFails?) ==> r.db == db
    ensures HasEvent(db, eid) && !fault.RecordInsertFails? ==>
              && r.db.records == db.records + [Record(db.nextRecordId, name, eid, now)]
              && r.db.nextRecordId == db.nextRecordId + 1
    ensures Wf(db) && r.result.Some? ==>
              r.result.value !in RecordIds(db.records) && Record(r.result.value, name, eid, now) in r.db.records
    ensures Wf(db) ==> Wf(r.db)
  {
    if fault.RecordInsertFails? || !HasEvent(db, eid) then Step(db, None)
    else
      var rid := db.nextRecordId;
      var roster := if fault.RosterReadFails? then [] else db.students;
      var n := RowsInserted(fault, |roster|);
      var db' := db.(records := db.records + [Record(rid, name, eid, now)],
                     attendance := db.attendance + Snapshot(rid, roster[..n]),
                     nextRecordId := rid + 1);
      if Wf(db) then
        SnapshotKeepsWf(db, name, eid, now, roster[..n]);
        Step(db', if n < |roster| then None else Some(rid))
      else Step(db', if n < |roster| then None else Some(rid))
  }

  /** Adding a record with a fresh id and its snapshot rows for some prefix of
      the roster keeps every constraint of the schema, the unique key on
      (record_id, student_id) included. */
  lemma SnapshotKeepsWf(db: Db, name: string, eid: nat, now: Time, students: seq<Student>)
    requires Wf(db) && HasEvent(db, eid)
    requires forall s :: s in students ==> s in db.students
    requires DistinctStudentIds(students)
    ensures Wf(db.(records := db.records + [Record(db.nextRecordId, name, eid, now)],
                   attendance := db.attendance + Snapshot(db.nextRecordId, students),
                   nextRecordId := db.nextRecordId + 1))
  {
    var rid := db.nextRecordId;
    var records := db.records + [Record(rid, name, eid, now)];
    var rows := db.attendance + Snapshot(rid, students);
    assert DistinctRecordIds(records) by {
      forall i | 0 <= i < |db.records| ensures db.records[i].id != rid {
        assert db.records[i] in db.records;
      }
    }
    assert RecordIds(records) == RecordIds(db.records) + {rid};
    forall w | w in rows
      ensures w.recordId in RecordIds(records) && w.entry.studentId in StudentIds(db.students)
    {
      if w !in db.attendance {
        var i :| 0 <= i < |Snapshot(rid, students)| && Snapshot(rid, students)[i] == w;
        assert students[i] in students;
      }
    }
    forall i, j | 0 <= i < j < |rows| ensures Key(rows[i]) != Key(rows[j]) {
      if j >= |db.attendance| && i < |db.attendance| {
        assert rows[i] in db.attendance;
        assert rows[i].recordId in RecordIds(db.records);
      } else if i >= |db.attendance| {
        assert rows[i].entry.studentId == students[i - |db.attendance|].id;
      }
    }
  }

  /** The entries of the rows that `keep` selects, in table order. */
  function EntriesWhere(rows: seq<Row>, keep: Row -> bool): (r: seq<Entry>)
    ensures |r| <= |rows|
    ensures forall e :: e in r <==> exists i :: 0 <= i < |rows| && keep(rows[i]) && rows[i].entry == e
    ensures r == Flatten(seq(|rows|, i requires 0 <= i < |rows| => if keep(rows[i]) then [rows[i].entry] else []))
    decreases |rows|
  {
    if rows == [] then []
    else
      var rest := EntriesWhere(rows[1..], keep);
      assert forall i :: 0 < i < |rows| ==> rows[i] == rows[1..][i - 1];
      var parts := seq(|rows|, i requires 0 <= i < |rows| => if keep(rows[i]) then [rows[i].entry] else []);
      assert parts[1..] == seq(|rows[1..]|, i requires 0 <= i < |rows[1..]| =>
                                 if keep(rows[1..][i]) then [rows[1..][i].entry] else []);
      parts[0] + rest
  }

  /** The selection of a non-empty table: what the first row contributes,
      then the selection of the rest. */
  lemma EntriesWhereHead(rows: seq<Row>, keep: Row -> bool)
    requires rows != []
    ensures EntriesWhere(rows, keep) ==
            (if keep(rows[0]) then [rows[0].entry] else []) + EntriesWhere(rows[1..], keep)
  {
  }

  /** Two tests that agree on every row select the same entries. */
  lemma {:induction false} EntriesWhereSameTest(rows: seq<Row>, f: Row -> bool, g: Row -> bool)
    requires forall w :: f(w) == g(w)
    ensures EntriesWhere(rows, f) == EntriesWhere(rows, g)
    decreases |rows|
  {
    if rows != [] {
      EntriesWhereSameTest(rows[1..], f, g);
      EntriesWhereHead(rows, f);
      EntriesWhereHead(rows, g);
    }
  }

  lemma {:induction false} EntriesWhereAppend(a: seq<Row>, b: seq<Row>, keep: Row -> bool)
    ensures EntriesWhere(a + b, keep) == EntriesWhere(a, keep) + EntriesWhere(b, keep)
    decreases |a|
  {
    if a == [] {
      assert a + b == b;
    } else {
      var head := if keep(a[0]) then [a[0].entry] else [];
      assert (a + b)[0] == a[0];
      assert (a + b)[1..] == a[1..] + b;
      calc {
        EntriesWhere(a + b, keep);
        head + EntriesWhere(a[1..] + b, keep);
        { EntriesWhereAppend(a[1..], b, keep); }
        head + (EntriesWhere(a[1..], keep) + EntriesWhere(b, keep));
        (head + EntriesWhere(a[1..], keep)) + EntriesWhere(b, keep);
        EntriesWhere(a, keep) + EntriesWhere(b, keep);
      }
    }
  }

  /** When `keep` selects every row, the projection is the rows' entries. */
  lemma {:induction false} EntriesWhereAll(rows: seq<Row>, keep: Row -> bool)
    requires forall i :: 0 <= i < |rows| ==> keep(rows[i])
    ensures |EntriesWhere(rows, keep)| == |rows|
    ensures forall i :: 0 <= i < |rows| ==> EntriesWhere(rows, keep)[i] == rows[i].entry
    decreases |rows|
  {
    if rows != [] {
      EntriesWhereAll(rows[1..], keep);
    }
  }

  /** `get_students_for_record`: the entries of exactly the rows of record
      `rid`, in table order. */
  function GetStudentsForRecord(db: Db, rid: nat): (r: seq<Entry>)
    ensures forall e :: e in r <==> exists i :: 0 <= i < |db.attendance| && db.attendance[i].recordId == rid && db.attendance[i].entry == e
    ensures r == Flatten(seq(|db.attendance|, i requires 0 <= i < |db.attendance| =>
                   if db.attendance[i].recordId == rid then [db.attendance[i].entry] else []))
  {
    var keep := (w: Row) => w.recordId == rid;
    var rows := db.attendance;
    assert seq(|rows|, i requires 0 <= i < |rows| => if keep(rows[i]) then [rows[i].entry] else [])
        == seq(|db.attendance|, i requires 0 <= i < |db.attendance| =>
             if db.attendance[i].recordId == rid then [db.attendance[i].entry] else []);
    EntriesWhere(rows, keep)
  }

  /** `get_attendance_for_event`: the entries of exactly the rows whose record
      belongs to event `eid`, across all of its records. */
  function GetAttendanceForEvent(db: Db, eid: nat): (r: seq<Entry>)
    ensures forall e :: e in r <==>
              exists i :: 0 <= i < |db.attendance| &&
                InEvent(db.records, db.attendance[i].recordId, Some(eid)) && db.attendance[i].entry == e
    ensures r == Flatten(seq(|db.attendance|, i requires 0 <= i < |db.attendance| =>
                   if InEvent(db.records, db.attendance[i].recordId, Some(eid)) then [db.attendance[i].entry] else []))
  {
    var keep := (w: Row) => InEvent(db.records, w.recordId, Some(eid));
    var rows := db.attendance;
    assert seq(|rows|, i requires 0 <= i < |rows| => if keep(rows[i]) then [rows[i].entry] else [])
        == seq(|db.attendance|, i requires 0 <= i < |db.attendance| =>
             if InEvent(db.records, db.attendance[i].recordId, Some(eid)) then [db.attendance[i].entry] else []);
    EntriesWhere(rows, keep)
  }

  /** `get_records_for_event`: the records of event `eid` in table order; a
      missing event id (None) compares as SQL NULL and selects nothing. */
  function GetRecordsForEvent(records: seq<Record>, eid: Option<nat>): (r: seq<Record>)
    ensures forall x :: x in r <==> x in records && eid.Some? && x.eventId == eid.value
    ensures eid.None? ==> r == []
    ensures r == Flatten(seq(|records|, i requires 0 <= i < |records| =>
                   if eid.Some? && records[i].eventId == eid.value then [records[i]] else []))
    decreases |records|
  {
    if records == [] then []
    else
      var rest := GetRecordsForEvent(records[1..], eid);
      assert records == [records[0]] + records[1..];
      var parts := seq(|records|, i requires 0 <= i < |records| =>
                     if eid.Some? && records[i].eventId == eid.value then [records[i]] else []);
      assert parts[1..] == seq(|records[1..]|, i requires 0 <= i < |records[1..]| =>
                             if eid.Some? && records[1..][i].eventId == eid.value then [records[1..][i]] else []);
      parts[0] + rest
  }

  /** The entries a successful, fault-free record creation makes visible
      under the new record: one per student on the roster at that moment, in
      roster order, each `Absent` with no timestamp and the student's name,
      year level and course copied in. */
  lemma SnapshotContents(db: Db, name: string, eid: nat, now: Time)
    requires Wf(db) && HasEvent(db, eid)
    ensures CreateAttendanceRecord(db, name, eid, now, NoFault).result.Some?
    ensures var r := CreateAttendanceRecord(db, name, eid, now, NoFault);
            var rows := GetStudentsForRecord(r.db, r.result.value);
            && |rows| == |db.students|
            && (forall i :: 0 <= i < |rows| ==>
                 rows[i] == Entry(db.students[i].id, db.students[i].fname, db.students[i].yearLevel,
                                  db.students[i].course, Absent, None))
            && rows == AbsentEntries(db.students)
  {
    var r := CreateAttendanceRecord(db, name, eid, now, NoFault);
    SnapshotVisible(db, name, eid, now, NoFault);
    assert db.students[..|db.students|] == db.students;
    assert r.result.value == db.nextRecordId;
  }

  /** Whatever the fault, the new record's visible entries are exactly the
      snapshot rows that were inserted before it: the snapshot of a roster
      prefix, so a part-way failure leaves a partly filled record behind. */
  lemma SnapshotVisible(db: Db, name: string, eid: nat, now: Time, fault: SnapshotFault)
    requires Wf(db) && HasEvent(db, eid) && !fault.RecordInsertFails?
    ensures var r := CreateAttendanceRecord(db, name, eid, now, fault);
            var roster := if fault.RosterReadFails? then [] else db.students;
            var n := RowsInserted(fault, |roster|);
            var snap := Snapshot(db.nextRecordId, roster[..n]);
            && Record(db.nextRecordId, name, eid, now) in r.db.records
            && |GetStudentsForRecord(r.db, db.nextRecordId)| == n
            && forall i :: 0 <= i < n ==> GetStudentsForRecord(r.db, db.nextRecordId)[i] == snap[i].entry
  {
    var rid := db.nextRecordId;
    var roster := if fault.RosterReadFails? then [] else db.students;
    var n := RowsInserted(fault, |roster|);
    var snap := Snapshot(rid, roster[..n]);
    var r := CreateAttendanceRecord(db, name, eid, now, fault);
    assert r.db.attendance == db.attendance + snap;
    var keep := (w: Row) => w.recordId == rid;
    NoRowOfNextRecord(db);
    SelectAfterOthers(db.attendance, snap, keep);
    EntriesWhereAll(snap, keep);
  }

  /** No row of a well-formed database belongs to the record id the counter
      hands out next. */
  lemma NoRowOfNextRecord(db: Db)
    requires Wf(db)
    ensures forall i :: 0 <= i < |db.attendance| ==> db.attendance[i].recordId != db.nextRecordId
  {
    forall i | 0 <= i < |db.attendance| ensures db.attendance[i].recordId != db.nextRecordId {
      assert db.attendance[i] in db.attendance;
    }
  }

  /** Selecting from rows appended after rows the test rejects is selecting
      from the appended rows alone. */
  lemma SelectAfterOthers(before: seq<Row>, added: seq<Row>, keep: Row -> bool)
    requires forall i :: 0 <= i < |before| ==> !keep(before[i])
    ensures EntriesWhere(before + added, keep) == EntriesWhere(added, keep)
  {
    EntriesWhereAppend(before, added, keep);
    NoneKept(before, keep);
  }

  lemma {:induction false} NoneKept(rows: seq<Row>, keep: Row -> bool)
    requires forall i :: 0 <= i < |rows| ==> !keep(rows[i])
    ensures EntriesWhere(rows, keep) == []
    decreases |rows|
  {
    if rows != [] {
      NoneKept(rows[1..], keep);
    }
  }

  /** A part-way failure of the snapshot: the call reports failure (None), yet
      the record exists and holds the first `k` students' rows. */
  lemma PartialSnapshotRemains(db: Db, name: string, eid: nat, now: Time, k: nat)
    requires Wf(db) && HasEvent(db, eid) && k < |db.students|
    ensures var r := CreateAttendanceRecord(db, name, eid, now, RowInsertFails(k));
            && r.result.None?
            && Record(db.nextRecordId, name, eid, now) in r.db.records
            && |GetStudentsForRecord(r.db, db.nextRecordId)| == k
  {
    SnapshotVisible(db, name, eid, now, RowInsertFails(k));
  }

  /** When the roster read fails, the record is created and its id returned,
      but it has no rows at all, however many students there are. */
  lemma EmptySnapshotOnRosterReadFailure(db: Db, name: string, eid: nat, now: Time)
    requires Wf(db) && HasEvent(db, eid)
    ensures var r := CreateAttendanceRecord(db, name, eid, now, RosterReadFails);
            && r.result == Some(db.nextRecordId)
            && GetStudentsForRecord(r.db, db.nextRecordId) == []
  {
    SnapshotVisible(db, name, eid, now, RosterReadFails);
  }

  /** Creating a record never changes what any other record shows. */
  lemma SnapshotLeavesOtherRecords(db: Db, name: string, eid: nat, now: Time, fault: SnapshotFault, other: nat)
    requires other != db.nextRecordId
    ensures GetStudentsForRecord(CreateAttendanceRecord(db, name, eid, now, fault).db, other) == GetStudentsForRecord(db, other)
  {
    var r := CreateAttendanceRecord(db, name, eid, now, fault);
    if r.db != db {
      var roster := if fault.RosterReadFails? then [] else db.students;
      var snap := Snapshot(db.nextRecordId, roster[..RowsInserted(fault, |roster|)]);
      var keep := (w: Row) => w.recordId == other;
      assert r.db.attendance == db.attendance + snap;
      EntriesWhereAppend(db.attendance, snap, keep);
      NoneKept(snap, keep);
    }
  }
}

=== FILE: marking.dfy ===
/** The two status updates on the Attendance table: the event-wide one of
    the data layer (used by the scanner and by the event view's drop-downs)
    and the record-scoped one of the main window. Both set the status and
    restamp the row with the current time, whatever the previous status was;
    neither ever adds or removes a row. */
module Marking {
  import opened Tables
  import opened Lifecycle

  /** Row `w` with a new status and a fresh timestamp. */
  function Restamp(w: Row, status: Status, now: Time): Row {
    w.(entry := w.entry.(status := status, timestamp := Some(now)))
  }

  /** `a` and `b` are the same row of the same student, whatever their status
      and timestamp. */
  predicate SameStudentRow(a: Row, b: Row) {
    && a.recordId == b.recordId && a.entry.studentId == b.entry.studentId
    && a.entry.fname == b.entry.fname && a.entry.yearLevel == b.entry.yearLevel && a.entry.course == b.entry.course
  }

  /** The rows the event-wide UPDATE matches: rows of student `sid` whose
      record belongs to event `eid`. */
  predicate EventHit(records: seq<Record>, w: Row, eid: Option<nat>, sid: string) {
    InEvent(records, w.recordId, eid) && w.entry.studentId == sid
  }

  /** `update_attendance_status`: every row of student `sid` in every record
      of event `eid` gets `status` and the timestamp `now`; all other rows are
      left alone. The call reports True even when no row matched. */
  function UpdateAttendanceStatus(db: Db, eid: Option<nat>, sid: string, status: Status, now: Time): (r: Step<bool>)
    ensures r.result
    ensures r.db == db.(attendance := r.db.attendance)
    ensures |r.db.attendance| == |db.attendance|
    ensures forall i :: 0 <= i < |db.attendance| ==>
              if EventHit(db.records, db.attendance[i], eid, sid) then
                && SameStudentRow(r.db.attendance[i], db.attendance[i])
                && r.db.attendance[i].entry.status == status && r.db.attendance[i].entry.timestamp == Some(now)
              else r.db.attendance[i] == db.attendance[i]
    ensures Wf(db) ==> Wf(r.db)
  {
    var rows := seq(|db.attendance|, i requires 0 <= i < |db.attendance| =>
      if EventHit(db.records, db.attendance[i], eid, sid) then Restamp(db.attendance[i], status, now)
      else db.attendance[i]);
    var db' := db.(attendance := rows);
    assert Wf(db) ==> Wf(db') by {
      if Wf(db) { RestampKeepsWf(db, rows); }
    }
    Step(db', true)
  }

  /** Replacing rows by the same students' rows, position by position, keeps
      every constraint of the schema. */
  lemma RestampKeepsWf(db: Db, rows: seq<Row>)
    requires Wf(db) && |rows| == |db.attendance|
    requires forall i :: 0 <= i < |rows| ==> SameStudentRow(rows[i], db.attendance[i])
    ensures Wf(db.(attendance := rows))
  {
    forall w | w in rows ensures w.recordId in RecordIds(db.records) && w.entry.studentId in StudentIds(db.students) {
      var i :| 0 <= i < |rows| && rows[i] == w;
      assert db.attendance[i] in db.attendance;
    }
    forall i, j | 0 <= i < j < |rows| ensures Key(rows[i]) != Key(rows[j]) {
      assert Key(rows[i]) == Key(db.attendance[i]) && Key(rows[j]) == Key(db.attendance[j]);
    }
  }

  /** `mark_student_present`: the event-wide update with status Present. */
  function MarkStudentPresent(db: Db, eid: Option<nat>, sid: string, now: Time): (r: Step<bool>)
    ensures r.result
    ensures r.db == db.(attendance := r.db.attendance) && |r.db.attendance| == |db.attendance|
    ensures forall i :: 0 <= i < |db.attendance| ==>
              if EventHit(db.records, db.attendance[i], eid, sid) then
                && SameStudentRow(r.db.attendance[i], db.attendance[i])
                && r.db.attendance[i].entry.status == Present && r.db.attendance[i].entry.timestamp == Some(now)
              else r.db.attendance[i] == db.attendance[i]
    ensures Wf(db) ==> Wf(r.db)
  {
    UpdateAttendanceStatus(db, eid, sid, Present, now)
  }

  /** Updating the same student of the same event again, later, leaves the
      table exactly as the later update alone would: the second call
      overwrites the status and refreshes the timestamp. */
  lemma UpdateAgainOverwrites(db: Db, eid: Option<nat>, sid: string, s1: Status, s2: Status, t1: Time, t2: Time)
    ensures UpdateAttendanceStatus(UpdateAttendanceStatus(db, eid, sid, s1, t1).db, eid, sid, s2, t2).db
         == UpdateAttendanceStatus(db, eid, sid, s2, t2).db
  {
    var a := UpdateAttendanceStatus(db, eid, sid, s1, t1).db;
    var b := UpdateAttendanceStatus(a, eid, sid, s2, t2).db;
    var c := UpdateAttendanceStatus(db, eid, sid, s2, t2).db;
    assert a.records == db.records;
    forall i | 0 <= i < |db.attendance| ensures b.attendance[i] == c.attendance[i] {
      assert EventHit(a.records, a.attendance[i], eid, sid) == EventHit(db.records, db.attendance[i], eid, sid);
    }
    assert b.attendance == c.attendance;
  }

  /** When no row of `sid` belongs to the event, the update changes nothing
      (and still reports success). */
  lemma UpdateWithoutMatchIsNoOp(db: Db, eid: Option<nat>, sid: string, status: Status, now: Time)
    requires forall i :: 0 <= i < |db.attendance| ==> !EventHit(db.records, db.attendance[i], eid, sid)
    ensures UpdateAttendanceStatus(db, eid, sid, status, now) == Step(db, true)
  {
    var r := UpdateAttendanceStatus(db, eid, sid, status, now);
    assert r.db.attendance == db.attendance;
  }

  /** `update_attendance_status_for_record`: the row of student `sid` in
      record `rid`, if there is one, gets `status` and the timestamp `now`;
      every other row is left alone. Reports True even when no row matched. */
  function UpdateStatusForRecord(db: Db, rid: nat, sid: string, status: Status, now: Time): (r: Step<bool>)
    ensures r.result
    ensures r.db == db.(attendance := r.db.attendance)
    ensures |r.db.attendance| == |db.attendance|
    ensures forall i :: 0 <= i < |db.attendance| ==>
              if Key(db.attendance[i]) == (rid, sid) then
                && SameStudentRow(r.db.attendance[i], db.attendance[i])
                && r.db.attendance[i].entry.status == status && r.db.attendance[i].entry.timestamp == Some(now)
              else r.db.attendance[i] == db.attendance[i]
    ensures Wf(db) ==> Wf(r.db)
  {
    var rows := seq(|db.attendance|, i requires 0 <= i < |db.attendance| =>
      if Key(db.attendance[i]) == (rid, sid) then Restamp(db.attendance[i], status, now)
      else db.attendance[i]);
    var db' := db.(attendance := rows);
    assert Wf(db) ==> Wf(db') by {
      if Wf(db) { RestampKeepsWf(db, rows); }
    }
    Step(db', true)
  }

  /** Because (record_id, student_id) is unique, the record-scoped update
      changes at most one row. */
  lemma RecordUpdateTouchesAtMostOneRow(db: Db, rid: nat, sid: string, status: Status, now: Time, i: nat, j: nat)
    requires Wf(db)
    requires i < |db.attendance| && j < |db.attendance|
    requires UpdateStatusForRecord(db, rid, sid, status, now).db.attendance[i] != db.attendance[i]
    requires UpdateStatusForRecord(db, rid, sid, status, now).db.attendance[j] != db.attendance[j]
    ensures i == j
  {
  }

  /** The record-scoped update applied to each record id in turn. */
  function UpdateRecords(db: Db, rids: seq<nat>, sid: string, status: Status, now: Time): (r: Db)
    ensures r == db.(attendance := r.attendance)
    ensures |r.attendance| == |db.attendance|
    decreases |rids|
  {
    if rids == [] then db
    else UpdateRecords(UpdateStatusForRecord(db, rids[0], sid, status, now).db, rids[1..], sid, status, now)
  }

  /** Row by row, applying the record-scoped update to each id of `rids`
      restamps exactly the rows of `sid` whose record is among `rids`. */
  lemma {:induction false} UpdateRecordsRows(db: Db, rids: seq<nat>, sid: string, status: Status, now: Time)
    ensures forall i :: 0 <= i < |db.attendance| ==>
              UpdateRecords(db, rids, sid, status, now).attendance[i] ==
                if db.attendance[i].recordId in rids && db.attendance[i].entry.studentId == sid
                then Restamp(db.attendance[i], status, now) else db.attendance[i]
    decreases |rids|
  {
    if rids != [] {
      var d1 := UpdateStatusForRecord(db, rids[0], sid, status, now).db;
      UpdateRecordsRows(d1, rids[1..], sid, status, now);
      forall i | 0 <= i < |db.attendance|
        ensures UpdateRecords(db, rids, sid, status, now).attendance[i] ==
                if db.attendance[i].recordId in rids && db.attendance[i].entry.studentId == sid
                then Restamp(db.attendance[i], status, now) else db.attendance[i]
      {
        assert rids == [rids[0]] + rids[1..];
        assert d1.attendance[i].recordId == db.attendance[i].recordId;
        assert d1.attendance[i].entry.studentId == db.attendance[i].entry.studentId;
        if Key(db.attendance[i]) == (rids[0], sid) {
          assert d1.attendance[i] == Restamp(db.attendance[i], status, now);
        }
      }
    }
  }

  function RecordIdsOf(records: seq<Record>): (r: seq<nat>)
    ensures |r| == |records|
    ensures forall i :: 0 <= i < |records| ==> r[i] == records[i].id
  {
    seq(|records|, i requires 0 <= i < |records| => records[i].id)
  }

  /** A record belongs to event `eid` exactly when its id is among the ids
      of the event's records. */
  lemma InEventIffListed(records: seq<Record>, eid: nat, rid: nat)
    ensures InEvent(records, rid, Some(eid)) <==> rid in RecordIdsOf(GetRecordsForEvent(records, Some(eid)))
  {
    var rs := GetRecordsForEvent(records, Some(eid));
    var rids := RecordIdsOf(rs);
    if InEvent(records, rid, Some(eid)) {
      var k :| 0 <= k < |records| && records[k].id == rid && records[k].eventId == eid;
      assert records[k] in rs;
      var m :| 0 <= m < |rs| && rs[m] == records[k];
      assert rids[m] == rid;
    }
    if rid in rids {
      var m :| 0 <= m < |rids| && rids[m] == rid;
      assert rs[m] in rs;
      var k :| 0 <= k < |records| && records[k] == rs[m];
    }
  }

  /** The scanner's event-wide update is, row for row, the main window's
      record-scoped update applied to every record of the event in turn: it
      is never confined to the record on screen. */
  lemma EventUpdateIsPerRecordUpdates(db: Db, eid: nat, sid: string, status: Status, now: Time)
    ensures UpdateAttendanceStatus(db, Some(eid), sid, status, now).db ==
            UpdateRecords(db, RecordIdsOf(GetRecordsForEvent(db.records, Some(eid))), sid, status, now)
  {
    var rids := RecordIdsOf(GetRecordsForEvent(db.records, Some(eid)));
    var lhs := UpdateAttendanceStatus(db, Some(eid), sid, status, now).db;
    var rhs := UpdateRecords(db, rids, sid, status, now);
    UpdateRecordsRows(db, rids, sid, status, now);
    forall i | 0 <= i < |db.attendance| ensures lhs.attendance[i] == rhs.attendance[i] {
      InEventIffListed(db.records, eid, db.attendance[i].recordId);
    }
    assert lhs.attendance == rhs.attendance;
  }
}

=== FILE: roster.dfy ===
/** The Students table: the two insert flavours (plain INSERT and INSERT
    IGNORE), the bulk imports built on INSERT IGNORE, and the lookup by id. */
module Roster {
  import opened Tables

  /** One `INSERT IGNORE INTO Students`: a student whose id is already taken is
      dropped without an error, a new id is appended. */
  function InsertIgnore(students: seq<Student>, s: Student): (r: seq<Student>)
    ensures students <= r
    ensures StudentIds(r) == StudentIds(students) + {s.id}
    ensures |r| == |students| <==> s.id in StudentIds(students)
    ensures |r| > |students| ==> r == students + [s]
    ensures DistinctStudentIds(students) ==> DistinctStudentIds(r)
  {
    if s.id in StudentIds(students) then students else students + [s]
  }

  /** `add_student`: a plain INSERT, which the primary key on student_id
      rejects when the id is taken; the error is caught and reported as
      False. */
  function AddStudent(db: Db, s: Student): (r: Step<bool>)
    ensures r.result <==> s.id !in StudentIds(db.students)
    ensures !r.result ==> r.db == db
    ensures r.db == db.(students := InsertIgnore(db.students, s))
    ensures Wf(db) ==> Wf(r.db)
  {
    if s.id in StudentIds(db.students) then Step(db, false)
    else Step(db.(students := db.students + [s]), true)
  }

  /** A sequence of INSERT IGNOREs, one per student, in order. */
  function InsertAllIgnore(students: seq<Student>, news: seq<Student>): (r: seq<Student>)
    ensures students <= r
    ensures DistinctStudentIds(students) ==> DistinctStudentIds(r)
    decreases |news|
  {
    if news == [] then students
    else InsertAllIgnore(InsertIgnore(students, news[0]), news[1..])
  }

  /** `news[j]` is the first student in `news` carrying its id. */
  predicate FirstWithId(news: seq<Student>, j: int)
    requires 0 <= j < |news|
  {
    forall i :: 0 <= i < j ==> news[i].id != news[j].id
  }

  /** A bulk INSERT IGNORE ends with exactly the old ids plus the new ones. */
  lemma {:induction false} InsertAllIgnoreIds(students: seq<Student>, news: seq<Student>)
    ensures StudentIds(InsertAllIgnore(students, news)) == StudentIds(students) + StudentIds(news)
    decreases |news|
  {
    if news != [] {
      InsertAllIgnoreIds(InsertIgnore(students, news[0]), news[1..]);
      StudentIdsCons(news);
    }
  }

  lemma StudentIdsCons(news: seq<Student>)
    requires news != []
    ensures StudentIds(news) == {news[0].id} + StudentIds(news[1..])
  {
    forall x | x in StudentIds(news) ensures x in {news[0].id} + StudentIds(news[1..]) {
      var s :| s in news && s.id == x;
      var i :| 0 <= i < |news| && news[i] == s;
      if i > 0 { assert news[1..][i - 1] == s; }
    }
    forall x | x in StudentIds(news[1..]) ensures x in StudentIds(news) {
      var s :| s in news[1..] && s.id == x;
      assert s in news;
    }
  }

  /** Every student a bulk INSERT IGNORE appends comes from `news`. */
  lemma {:induction false} InsertAllIgnoreFromNews(students: seq<Student>, news: seq<Student>)
    ensures forall k :: |students| <= k < |InsertAllIgnore(students, news)| ==> InsertAllIgnore(students, news)[k] in news
    decreases |news|
  {
    if news != [] {
      var s' := InsertIgnore(students, news[0]);
      var r := InsertAllIgnore(s', news[1..]);
      InsertAllIgnoreFromNews(s', news[1..]);
      forall k | |students| <= k < |r| ensures r[k] in news {
        if k < |s'| {
          assert r[k] == s'[k] == news[0];
        } else {
          assert r[k] in news[1..];
        }
      }
    }
  }

  /** For an id the table did not have, the first student in `news` with
      that id is the one stored: later duplicates are ignored. */
  lemma {:induction false} InsertAllIgnoreFirstWins(students: seq<Student>, news: seq<Student>, j: int)
    requires 0 <= j < |news| && news[j].id !in StudentIds(students) && FirstWithId(news, j)
    ensures news[j] in InsertAllIgnore(students, news)
    decreases |news|
  {
    var s' := InsertIgnore(students, news[0]);
    if j == 0 {
      assert s'[|students|] == news[0];
      assert s'[|students|] == InsertAllIgnore(s', news[1..])[|students|];
    } else {
      assert news[0].id != news[j].id;
      assert news[1..][j - 1] == news[j];
      assert FirstWithId(news[1..], j - 1) by {
        forall i | 0 <= i < j - 1 ensures news[1..][i].id != news[1..][j - 1].id {
          assert news[1..][i] == news[i + 1];
        }
      }
      InsertAllIgnoreFirstWins(s', news[1..], j - 1);
    }
  }

  /** For every id the table did not have, the first student in `news` with
      that id is stored. */
  lemma InsertAllIgnoreFirstsWin(students: seq<Student>, news: seq<Student>)
    ensures forall j :: 0 <= j < |news| && news[j].id !in StudentIds(students) && FirstWithId(news, j) ==>
              news[j] in InsertAllIgnore(students, news)
  {
    forall j | 0 <= j < |news| && news[j].id !in StudentIds(students) && FirstWithId(news, j)
      ensures news[j] in InsertAllIgnore(students, news)
    {
      InsertAllIgnoreFirstWins(students, news, j);
    }
  }

  /** Growing the roster by appending students keeps the schema's
      constraints, provided the ids stay distinct. */
  lemma GrowRosterWf(db: Db, students: seq<Student>)
    requires Wf(db)
    requires db.students <= students && DistinctStudentIds(students)
    ensures Wf(db.(students := students))
  {
    assert StudentIds(db.students) <= StudentIds(students) by {
      forall x | x in db.students ensures x in students {
        var i :| 0 <= i < |db.students| && db.students[i] == x;
        assert students[i] == x;
      }
    }
  }

  /** Re-importing students whose ids are all present changes nothing: bulk
      import is idempotent. */
  lemma {:induction false} InsertAllIgnoreKnown(students: seq<Student>, news: seq<Student>)
    requires StudentIds(news) <= StudentIds(students)
    ensures InsertAllIgnore(students, news) == students
    decreases |news|
  {
    if news != [] {
      assert news[0] in news;
      assert InsertIgnore(students, news[0]) == students;
      assert StudentIds(news[1..]) <= StudentIds(news) by {
        forall x | x in news[1..] ensures x in news { }
      }
      InsertAllIgnoreKnown(students, news[1..]);
    }
  }

  /** The student a CSV row describes; fields past the fourth are ignored. */
  function RowStudent(row: seq<string>): Student
    requires |row| >= 4
  {
    Student(row[0], row[1], row[2], row[3])
  }

  /** The students described by the CSV rows with at least four fields, in
      file order. */
  function CsvStudents(rows: seq<seq<string>>): (r: seq<Student>)
    ensures |r| <= |rows|
    ensures forall s :: s in r <==> exists i :: 0 <= i < |rows| && |rows[i]| >= 4 && RowStudent(rows[i]) == s
    ensures r == Flatten(seq(|rows|, i requires 0 <= i < |rows| =>
                   if |rows[i]| >= 4 then [RowStudent(rows[i])] else []))
    decreases |rows|
  {
    if rows == [] then []
    else
      var rest := CsvStudents(rows[1..]);
      assert forall i :: 0 < i < |rows| ==> rows[i] == rows[1..][i - 1];
      var parts := seq(|rows|, i requires 0 <= i < |rows| => if |rows[i]| >= 4 then [RowStudent(rows[i])] else []);
      assert parts[1..] == seq(|rows[1..]|, i requires 0 <= i < |rows[1..]| =>
                             if |rows[1..][i]| >= 4 then [RowStudent(rows[1..][i])] else []);
      parts[0] + rest
  }

  /** `import_students_from_csv` over the rows the CSV reader yields: the
      first row is a header and is skipped, rows with fewer than four fields
      are skipped, the rest go in by INSERT IGNORE. A file with no row at all
      makes the header read fail, which is reported as False. */
  function ImportStudentsFromCsv(db: Db, rows: seq<seq<string>>): (r: Step<bool>)
    ensures r.result <==> |rows| > 0
    ensures !r.result ==> r.db == db
    ensures db.students <= r.db.students
    ensures r.result ==> StudentIds(r.db.students) == StudentIds(db.students) + StudentIds(CsvStudents(rows[1..]))
    ensures r.result ==> forall k :: |db.students| <= k < |r.db.students| ==> r.db.students[k] in CsvStudents(rows[1..])
    ensures r.result ==> forall j :: 0 <= j < |CsvStudents(rows[1..])| ==>
              (CsvStudents(rows[1..])[j].id !in StudentIds(db.students) && FirstWithId(CsvStudents(rows[1..]), j) ==>
                 CsvStudents(rows[1..])[j] in r.db.students)
    ensures r.db.events == db.events && r.db.records == db.records && r.db.attendance == db.attendance
    ensures Wf(db) ==> Wf(r.db)
  {
    if rows == [] then Step(db, false)
    else
      var news := CsvStudents(rows[1..]);
      var students := InsertAllIgnore(db.students, news);
      InsertAllIgnoreIds(db.students, news);
      InsertAllIgnoreFromNews(db.students, news);
      InsertAllIgnoreFirstsWin(db.students, news);
      if Wf(db) then GrowRosterWf(db, students); Step(db.(students := students), true)
      else Step(db.(students := students), true)
  }

  /** The configured sample roster. */
  const SampleStudents: seq<Student> := [
    Student("2023-0001", "John Doe", "1st Year", "Computer Science"),
    Student("2023-0002", "Jane Smith", "2nd Year", "Information Technology"),
    Student("2023-0003", "Robert Johnson", "3rd Year", "Computer Engineering"),
    Student("2023-0004", "Emily Davis", "4th Year", "Software Engineering"),
    Student("2023-0005", "Michael Wilson", "1st Year", "Computer Science")
  ]

  /** When all ids in `news` are new and distinct, a bulk INSERT IGNORE
      appends all of them, in order. */
  lemma {:induction false} InsertAllIgnoreFresh(students: seq<Student>, news: seq<Student>)
    requires DistinctStudentIds(news)
    requires StudentIds(students) !! StudentIds(news)
    ensures InsertAllIgnore(students, news) == students + news
    decreases |news|
  {
    if news != [] {
      FreshTail(students, news);
      var s' := students + [news[0]];
      calc {
        InsertAllIgnore(students, news);
        InsertAllIgnore(InsertIgnore(students, news[0]), news[1..]);
        InsertAllIgnore(s', news[1..]);
        { InsertAllIgnoreFresh(s', news[1..]); }
        s' + news[1..];
        { assert [news[0]] + news[1..] == news; }
        students + news;
      }
    }
  }

  /** One step of `InsertAllIgnoreFresh`: the head goes in, and the tail is
      still fresh and distinct against the grown roster. */
  lemma FreshTail(students: seq<Student>, news: seq<Student>)
    requires news != [] && DistinctStudentIds(news)
    requires StudentIds(students) !! StudentIds(news)
    ensures InsertIgnore(students, news[0]) == students + [news[0]]
    ensures DistinctStudentIds(news[1..])
    ensures StudentIds(students + [news[0]]) !! StudentIds(news[1..])
  {
    StudentIdsCons(news);
    assert news[0].id !in StudentIds(students);
    assert DistinctStudentIds(news[1..]) by {
      forall i, j | 0 <= i < j < |news[1..]| ensures news[1..][i].id != news[1..][j].id {
        assert news[1..][i] == news[i + 1] && news[1..][j] == news[j + 1];
      }
    }
    assert news[0].id !in StudentIds(news[1..]) by {
      forall t | t in news[1..] ensures t.id != news[0].id {
        var i :| 0 <= i < |news[1..]| && news[1..][i] == t;
        assert news[i + 1] == t;
      }
    }
    assert StudentIds(students + [news[0]]) == StudentIds(students) + {news[0].id};
  }

  /** `import_sample_data`: INSERT IGNORE of every sample student, so that
      afterwards every sample id is on the roster. A sample student whose id
      is new is stored as configured; one whose id is taken is dropped. */
  function ImportSampleData(db: Db): (r: Db)
    ensures db.students <= r.students
    ensures StudentIds(r.students) == StudentIds(db.students) + StudentIds(SampleStudents)
    ensures forall k :: |db.students| <= k < |r.students| ==> r.students[k] in SampleStudents
    ensures forall j :: 0 <= j < |SampleStudents| ==>
              (SampleStudents[j].id !in StudentIds(db.students) ==> SampleStudents[j] in r.students)
    ensures r.events == db.events && r.records == db.records && r.attendance == db.attendance
    ensures Wf(db) ==> Wf(r)
  {
    var students := InsertAllIgnore(db.students, SampleStudents);
    SampleRoster(db.students);
    if Wf(db) then GrowRosterWf(db, students); db.(students := students)
    else db.(students := students)
  }

  /** What the bulk INSERT IGNORE of the sample does to a roster. */
  lemma SampleRoster(students: seq<Student>)
    ensures students <= InsertAllIgnore(students, SampleStudents)
    ensures StudentIds(InsertAllIgnore(students, SampleStudents)) == StudentIds(students) + StudentIds(SampleStudents)
    ensures forall k :: |students| <= k < |InsertAllIgnore(students, SampleStudents)| ==>
              InsertAllIgnore(students, SampleStudents)[k] in SampleStudents
    ensures forall j :: 0 <= j < |SampleStudents| ==>
              (SampleStudents[j].id !in StudentIds(students) ==> SampleStudents[j] in InsertAllIgnore(students, SampleStudents))
  {
    InsertAllIgnoreIds(students, SampleStudents);
    InsertAllIgnoreFromNews(students, SampleStudents);
    SampleIdsDistinct();
    InsertAllIgnoreFirstsWin(students, SampleStudents);
  }

  /** The sample ids end in the digits 1 to 5. */
  lemma SampleIdDigit(i: int)
    requires 0 <= i < |SampleStudents|
    ensures |SampleStudents[i].id| == 9 && SampleStudents[i].id[8] as int == '1' as int + i
  {
    if i == 0 { assert SampleStudents[0].id[8] == '1'; }
    else if i == 1 { assert SampleStudents[1].id[8] == '2'; }
    else if i == 2 { assert SampleStudents[2].id[8] == '3'; }
    else if i == 3 { assert SampleStudents[3].id[8] == '4'; }
    else { assert SampleStudents[4].id[8] == '5'; }
  }

  /** No two sample students share an id, so each is the first with its id. */
  lemma SampleIdsDistinct()
    ensures DistinctStudentIds(SampleStudents)
    ensures forall j :: 0 <= j < |SampleStudents| ==> FirstWithId(SampleStudents, j)
  {
    forall i, j | 0 <= i < j < |SampleStudents| ensures SampleStudents[i].id != SampleStudents[j].id {
      SampleIdDigit(i);
      SampleIdDigit(j);
    }
  }

  /** Importing the sample twice is the same as importing it once, and into an
      empty roster it yields exactly the sample, in order. */
  lemma ImportSampleDataFacts(db: Db)
    ensures ImportSampleData(ImportSampleData(db)) == ImportSampleData(db)
    ensures db.students == [] ==> ImportSampleData(db).students == SampleStudents
  {
    var r := ImportSampleData(db);
    InsertAllIgnoreKnown(r.students, SampleStudents);
    if db.students == [] {
      SampleIdsDistinct();
      InsertAllIgnoreFresh([], SampleStudents);
    }
  }

  /** `initialize_data`: the sample roster is loaded only into an empty
      Students table. */
  function InitializeData(db: Db): (r: Db)
    ensures db.students != [] ==> r == db
    ensures db.students == [] ==> r.students == SampleStudents
    ensures r.events == db.events && r.records == db.records && r.attendance == db.attendance
  {
    if db.students == [] then
      ImportSampleDataFacts(db);
      ImportSampleData(db)
    else db
  }

  /** `get_student_by_id`: the first student with the given id, if any. */
  function GetStudentById(students: seq<Student>, id: string): (r: Option<Student>)
    ensures r.Some? <==> id in StudentIds(students)
    ensures r.Some? ==> r.value in students && r.value.id == id
    ensures r.Some? && DistinctStudentIds(students) ==> forall s :: s in students && s.id == id ==> s == r.value
    decreases |students|
  {
    if students == [] then None
    else if students[0].id == id then Some(students[0])
    else
      assert StudentIds(students) == {students[0].id} + StudentIds(students[1..]) by {
        assert students == [students[0]] + students[1..];
      }
      GetStudentById(students[1..], id)
  }
}

=== FILE: scanner.dfy ===
/** The QR scanner page: the camera handle and polling timer, and what
    happens to the database and the status line when a frame's codes are
    read. A decoded payload is taken to be a student id; it is stripped and
    the student is marked Present in every record of the window's current
    event, with no check that the student exists and no debounce. */
module Scanner {
  import opened Text
  import opened Tables
  import opened Marking
  import opened Window

  /** An OpenCV capture handle and whether it opened. */
  datatype Capture = Capture(isOpen: bool)

  /** The scanner's state: its capture handle (`None` once released), whether
      the frame timer runs, and the text of the status line. */
  datatype Camera = Camera(cap: Option<Capture>, timerRunning: bool, status: string)

  /** The status line's resting text, also the text it starts with. */
  const ReadyText: string := "Point camera at QR code"

  const OpenErrorText: string := "Error: Could not open camera"

  /** The status line after a code has been handled. */
  function ScannedText(sid: string): string {
    "Scanned: " + sid + " marked as Present"
  }

  /** The scanner as constructed: no capture yet and the timer not started. */
  const InitialCamera: Camera := Camera(None, false, ReadyText)

  /** The scanner page together with the window whose database it updates. */
  datatype Station = Station(app: App, cam: Camera)

  /** `is_camera_active`: there is a capture handle and it opened. */
  function IsCameraActive(c: Camera): (active: bool)
    ensures active <==> c.cap == Some(Capture(true))
  {
    c.cap.Some? && c.cap.value.isOpen
  }

  /** `start_camera`: a new capture replaces the old handle (which is not
      explicitly released); the timer starts only if it opened, otherwise the status line
      shows the error. */
  function StartCamera(c: Camera, opens: bool): (r: Camera)
    ensures IsCameraActive(r) <==> opens
    ensures r.cap.Some?
    ensures opens ==> r.timerRunning && r.status == c.status
    ensures !opens ==> r.timerRunning == c.timerRunning && r.status == OpenErrorText
  {
    if opens then Camera(Some(Capture(true)), true, c.status)
    else Camera(Some(Capture(false)), c.timerRunning, OpenErrorText)
  }

  /** `stop_camera`: the timer stops and any handle is released and dropped;
      the status line keeps its text. */
  function StopCamera(c: Camera): (r: Camera)
    ensures !IsCameraActive(r) && !r.timerRunning && r.cap.None?
    ensures r.status == c.status
  {
    Camera(None, false, c.status)
  }

  /** `process_qr_code`: the payload is stripped and used as the student id
      for the event-wide Present update of the current event; the status line
      reports the scan whether or not any row matched. */
  function ProcessQrCode(st: Station, data: string, now: Time): (r: Station)
    ensures r.app.currentEventId == st.app.currentEventId && r.app.currentRecordId == st.app.currentRecordId
    ensures r.cam == st.cam.(status := ScannedText(Strip(data)))
    ensures r.app.db == st.app.db.(attendance := r.app.db.attendance)
    ensures |r.app.db.attendance| == |st.app.db.attendance|
    ensures forall i :: 0 <= i < |st.app.db.attendance| ==>
              if EventHit(st.app.db.records, st.app.db.attendance[i], st.app.currentEventId, Strip(data)) then
                && SameStudentRow(r.app.db.attendance[i], st.app.db.attendance[i])
                && r.app.db.attendance[i].entry.status == Present
                && r.app.db.attendance[i].entry.timestamp == Some(now)
              else r.app.db.attendance[i] == st.app.db.attendance[i]
    ensures Wf(st.app.db) ==> Wf(r.app.db)
  {
    var sid := Strip(data);
    var marked := MarkStudentPresent(st.app.db, st.app.currentEventId, sid, now);
    Station(st.app.(db := marked.db), st.cam.(status := ScannedText(sid)))
  }

  /** The codes of one frame, handled in the order the decoder lists them. */
  function ProcessAll(st: Station, codes: seq<string>, now: Time): (r: Station)
    ensures codes == [] ==> r == st
    ensures codes != [] ==> r.cam.status == ScannedText(Strip(codes[|codes| - 1]))
    ensures r.cam.cap == st.cam.cap && r.cam.timerRunning == st.cam.timerRunning
    ensures r.app.currentEventId == st.app.currentEventId && r.app.currentRecordId == st.app.currentRecordId
    ensures r.app.db == st.app.db.(attendance := r.app.db.attendance)
    ensures |r.app.db.attendance| == |st.app.db.attendance|
    ensures Wf(st.app.db) ==> Wf(r.app.db)
    decreases |codes|
  {
    if codes == [] then st
    else
      var rest := codes[1..];
      assert rest != [] ==> rest[|rest| - 1] == codes[|codes| - 1];
      ProcessAll(ProcessQrCode(st, codes[0], now), rest, now)
  }

  /** `update_frame`: nothing happens unless the camera is active and the
      frame was read; then every decoded code is handled. */
  function UpdateFrame(st: Station, frameRead: bool, codes: seq<string>, now: Time): (r: Station)
    ensures !(IsCameraActive(st.cam) && frameRead) ==> r == st
    ensures IsCameraActive(st.cam) && frameRead && codes != [] ==>
              r.cam.status == ScannedText(Strip(codes[|codes| - 1]))
    ensures r.cam.cap == st.cam.cap && r.cam.timerRunning == st.cam.timerRunning
    ensures r.app.currentEventId == st.app.currentEventId && r.app.currentRecordId == st.app.currentRecordId
    ensures r.app.db == st.app.db.(attendance := r.app.db.attendance)
    ensures IsCameraActive(st.cam) && frameRead ==> r == ProcessAll(st, codes, now)
    ensures Wf(st.app.db) ==> Wf(r.app.db)
  {
    if IsCameraActive(st.cam) && frameRead then ProcessAll(st, codes, now) else st
  }

  /** Some code of the frame names the student of row `w`, and `w` belongs
      to event `eid`. */
  predicate ScannedBy(records: seq<Record>, w: Row, eid: Option<nat>, codes: seq<string>) {
    exists k :: 0 <= k < |codes| && EventHit(records, w, eid, Strip(codes[k]))
  }

  /** A frame's codes mark row `i` Present (stamped `now`) exactly when one
      of them names its student and the row belongs to the current event;
      otherwise the row is left as it was. */
  lemma {:induction false} ProcessAllRow(st: Station, codes: seq<string>, now: Time, i: nat)
    requires i < |st.app.db.attendance|
    ensures var w := st.app.db.attendance[i];
            var w' := ProcessAll(st, codes, now).app.db.attendance[i];
            if ScannedBy(st.app.db.records, w, st.app.currentEventId, codes) then
              SameStudentRow(w', w) && w'.entry.status == Present && w'.entry.timestamp == Some(now)
            else w' == w
    decreases |codes|
  {
    var records := st.app.db.records;
    var eid := st.app.currentEventId;
    var w := st.app.db.attendance[i];
    if codes != [] {
      var st1 := ProcessQrCode(st, codes[0], now);
      var rest := codes[1..];
      ProcessAllRow(st1, rest, now, i);
      var w1 := st1.app.db.attendance[i];
      assert ProcessAll(st, codes, now) == ProcessAll(st1, rest, now);
      // The first code keeps the row's record and student, so the later
      // codes hit it exactly when they would have hit the original row.
      assert w1.recordId == w.recordId && w1.entry.studentId == w.entry.studentId;
      assert ScannedBy(records, w1, eid, rest) <==> ScannedBy(records, w, eid, rest);
      ScannedBySplit(records, w, eid, codes);
    }
  }

  /** A row is scanned by a frame exactly when the first code or one of the
      remaining codes names it. */
  lemma ScannedBySplit(records: seq<Record>, w: Row, eid: Option<nat>, codes: seq<string>)
    requires codes != []
    ensures ScannedBy(records, w, eid, codes) <==>
            EventHit(records, w, eid, Strip(codes[0])) || ScannedBy(records, w, eid, codes[1..])
  {
    var rest := codes[1..];
    if ScannedBy(records, w, eid, codes) {
      var k :| 0 <= k < |codes| && EventHit(records, w, eid, Strip(codes[k]));
      if k > 0 { assert rest[k - 1] == codes[k]; }
    }
    if ScannedBy(records, w, eid, rest) {
      var k :| 0 <= k < |rest| && EventHit(records, w, eid, Strip(rest[k]));
      assert codes[k + 1] == rest[k];
    }
  }

  /** Row by row, a frame's codes mark Present exactly the rows of the
      current event whose student one of the codes names. */
  lemma ProcessAllRows(st: Station, codes: seq<string>, now: Time)
    ensures forall i :: 0 <= i < |st.app.db.attendance| ==>
              var w := st.app.db.attendance[i];
              var w' := ProcessAll(st, codes, now).app.db.attendance[i];
              if ScannedBy(st.app.db.records, w, st.app.currentEventId, codes) then
                SameStudentRow(w', w) && w'.entry.status == Present && w'.entry.timestamp == Some(now)
              else w' == w
  {
    forall i | 0 <= i < |st.app.db.attendance|
      ensures var w := st.app.db.attendance[i];
              var w' := ProcessAll(st, codes, now).app.db.attendance[i];
              if ScannedBy(st.app.db.records, w, st.app.currentEventId, codes) then
                SameStudentRow(w', w) && w'.entry.status == Present && w'.entry.timestamp == Some(now)
              else w' == w
    {
      ProcessAllRow(st, codes, now, i);
    }
  }

  /** A payload with white space around it marks the same student and shows
      the same status as the bare id. */
  lemma PaddedPayloadScansAlike(st: Station, pre: string, sid: string, post: string, now: Time)
    requires AllSpace(pre) && AllSpace(post)
    ensures ProcessQrCode(st, pre + sid + post, now) == ProcessQrCode(st, sid, now)
  {
    StripPadded(pre, sid, post);
  }

  /** Scanning the same code again later changes the table exactly as the
      later scan alone would: the status stays Present and the timestamp
      moves to the later scan. */
  lemma RescanRefreshesTimestamp(st: Station, data: string, t1: Time, t2: Time)
    ensures ProcessQrCode(ProcessQrCode(st, data, t1), data, t2).app.db == ProcessQrCode(st, data, t2).app.db
  {
    UpdateAgainOverwrites(st.app.db, st.app.currentEventId, Strip(data), Present, Present, t1, t2);
  }

  /** A scan with no current event (Python's None) changes no row, yet the
      status line still reports the student as marked Present. */
  lemma ScanWithoutEventChangesNoRow(st: Station, data: string, now: Time)
    requires st.app.currentEventId.None?
    ensures ProcessQrCode(st, data, now).app == st.app
    ensures ProcessQrCode(st, data, now).cam.status == ScannedText(Strip(data))
  {
    UpdateWithoutMatchIsNoOp(st.app.db, None, Strip(data), Present, now);
  }

  /** A code naming a student with no row in the current event (an unknown
      id, or a student added after the records were snapshotted) changes no
      row. */
  lemma UnknownStudentScanChangesNoRow(st: Station, data: string, now: Time)
    requires forall w :: w in st.app.db.attendance ==> w.entry.studentId != Strip(data)
    ensures ProcessQrCode(st, data, now).app == st.app
  {
    var rows := st.app.db.attendance;
    forall i | 0 <= i < |rows| ensures !EventHit(st.app.db.records, rows[i], st.app.currentEventId, Strip(data)) {
      assert rows[i] in rows;
    }
    UpdateWithoutMatchIsNoOp(st.app.db, st.app.currentEventId, Strip(data), Present, now);
  }

  /** Before the camera is first started, and once it is stopped, frames
      are ignored until it is started with a capture that opens. */
  lemma StoppedCameraIgnoresFrames(st: Station, frameRead: bool, codes: seq<string>, now: Time)
    ensures var unstarted := st.(cam := InitialCamera);
            UpdateFrame(unstarted, frameRead, codes, now) == unstarted
    ensures var stopped := st.(cam := StopCamera(st.cam));
            UpdateFrame(stopped, frameRead, codes, now) == stopped
    ensures var failed := st.(cam := StartCamera(st.cam, false));
            UpdateFrame(failed, frameRead, codes, now) == failed
  {
  }
}

=== FILE: search.dfy ===
/** The search box and status filter of the attendance table, and the search
    box of the masterlist (roster) table. A row matches the search when the
    lowercased search text occurs in the lowercased student id, name, year
    level or course. */
module Search {
  import opened Text
  import opened Tables

  /** The status filter's first option, which lets every status through. */
  const AllStatuses: string := "All Statuses"

  /** The four-field search test; `needle` is already lowercased. A row is
      found by searching for any one of its fields in full, in any case, and
      never by a needle longer than all four fields. */
  function MatchesSearch(needle: string, id: string, fname: string, yearLevel: string, course: string): (r: bool)
    ensures r ==> |needle| <= |id| || |needle| <= |fname| || |needle| <= |yearLevel| || |needle| <= |course|
    ensures needle == Lower(id) || needle == Lower(fname) || needle == Lower(yearLevel) || needle == Lower(course) ==> r
  {
    || Contains(Lower(id), needle)
    || Contains(Lower(fname), needle)
    || Contains(Lower(yearLevel), needle)
    || Contains(Lower(course), needle)
  }

  /** The status test: "All Statuses" admits every status, a status name
      admits exactly that status, and any other text admits none. */
  function MatchesStatus(statusFilter: string, s: Status): (r: bool)
    ensures statusFilter == AllStatuses ==> r
    ensures r && statusFilter != AllStatuses ==> forall t: Status :: StatusName(t) == statusFilter <==> t == s
    ensures statusFilter != AllStatuses && statusFilter !in AttendanceStatuses ==> !r
  {
    statusFilter == AllStatuses || StatusName(s) == statusFilter
  }

  /** The attendance table keeps an entry when both tests pass: a blank
      search leaves only the status test, and "All Statuses" only the search. */
  function Keeps(needle: string, statusFilter: string, e: Entry): (r: bool)
    ensures needle == [] ==> (r <==> MatchesStatus(statusFilter, e.status))
    ensures statusFilter == AllStatuses ==> (r <==> MatchesSearch(needle, e.studentId, e.fname, e.yearLevel, e.course))
  {
    EmptyOccursEverywhere(Lower(e.studentId));
    MatchesSearch(needle, e.studentId, e.fname, e.yearLevel, e.course) && MatchesStatus(statusFilter, e.status)
  }

  /** `a` can be obtained from `b` by deleting elements: order is kept and
      nothing is added. */
  predicate IsSubsequence<T(==)>(a: seq<T>, b: seq<T>)
    decreases |b|
  {
    if a == [] then true
    else if b == [] then false
    else if a[0] == b[0] then IsSubsequence(a[1..], b[1..])
    else IsSubsequence(a, b[1..])
  }

  function KeepMatching(entries: seq<Entry>, needle: string, statusFilter: string): (r: seq<Entry>)
    ensures |r| <= |entries|
    ensures forall e :: e in r <==> e in entries && Keeps(needle, statusFilter, e)
    ensures r == Flatten(seq(|entries|, i requires 0 <= i < |entries| =>
                   if Keeps(needle, statusFilter, entries[i]) then [entries[i]] else []))
    decreases |entries|
  {
    if entries == [] then []
    else
      var rest := KeepMatching(entries[1..], needle, statusFilter);
      assert entries == [entries[0]] + entries[1..];
      var parts := seq(|entries|, i requires 0 <= i < |entries| =>
                     if Keeps(needle, statusFilter, entries[i]) then [entries[i]] else []);
      assert parts[1..] == seq(|entries[1..]|, i requires 0 <= i < |entries[1..]| =>
                             if Keeps(needle, statusFilter, entries[1..][i]) then [entries[1..][i]] else []);
      parts[0] + rest
  }

  /** The selection of `filter_attendance_table`: the search text is
      lowercased, then each entry is kept iff it passes both the search and
      the status test. */
  function FilterAttendance(entries: seq<Entry>, searchText: string, statusFilter: string): (r: seq<Entry>)
    ensures forall e :: e in r <==>
              && e in entries
              && (|| Contains(Lower(e.studentId), Lower(searchText)) || Contains(Lower(e.fname), Lower(searchText))
                  || Contains(Lower(e.yearLevel), Lower(searchText)) || Contains(Lower(e.course), Lower(searchText)))
              && (statusFilter == AllStatuses || StatusName(e.status) == statusFilter)
    ensures r == Flatten(seq(|entries|, i requires 0 <= i < |entries| =>
                   if Keeps(Lower(searchText), statusFilter, entries[i]) then [entries[i]] else []))
  {
    KeepMatching(entries, Lower(searchText), statusFilter)
  }

  /** Filtering a list that starts with `e`: `e` if it passes, then the
      filtered rest. */
  lemma KeepMatchingHead(e: Entry, rest: seq<Entry>, needle: string, statusFilter: string)
    ensures KeepMatching([e] + rest, needle, statusFilter) ==
            (if Keeps(needle, statusFilter, e) then [e] else []) + KeepMatching(rest, needle, statusFilter)
  {
    var entries := [e] + rest;
    assert entries[0] == e && entries[1..] == rest;
  }

  /** The filtered attendance list is a subsequence of its input. */
  lemma {:induction false} FilterAttendanceIsSubsequence(entries: seq<Entry>, searchText: string, statusFilter: string)
    ensures IsSubsequence(FilterAttendance(entries, searchText, statusFilter), entries)
  {
    KeepMatchingIsSubsequence(entries, Lower(searchText), statusFilter);
  }

  lemma {:induction false} KeepMatchingIsSubsequence(entries: seq<Entry>, needle: string, statusFilter: string)
    ensures IsSubsequence(KeepMatching(entries, needle, statusFilter), entries)
    decreases |entries|
  {
    if entries != [] {
      var rest := KeepMatching(entries[1..], needle, statusFilter);
      KeepMatchingIsSubsequence(entries[1..], needle, statusFilter);
      if !Keeps(needle, statusFilter, entries[0]) {
        var kept := KeepMatching(entries, needle, statusFilter);
        assert kept == [] + rest;
        assert kept == rest;
        SubsequenceOfTail(rest, entries);
        assert IsSubsequence(kept, entries);
      } else {
        var kept := KeepMatching(entries, needle, statusFilter);
        assert kept == [entries[0]] + rest;
        assert kept[1..] == rest;
      }
    }
  }

  /** A subsequence of the tail is a subsequence of the whole. */
  lemma {:induction false} SubsequenceOfTail<T>(a: seq<T>, b: seq<T>)
    requires b != [] && IsSubsequence(a, b[1..])
    ensures IsSubsequence(a, b)
    decreases |b|, |a|
  {
    if a != [] && a[0] == b[0] {
      // b[1..] has a[0] somewhere, so a[1..] is also a subsequence of b[1..].
      SubsequenceDropHead(a, b[1..]);
    }
  }

  /** Dropping the first element of a subsequence leaves a subsequence. */
  lemma {:induction false} SubsequenceDropHead<T>(a: seq<T>, b: seq<T>)
    requires a != [] && IsSubsequence(a, b)
    ensures IsSubsequence(a[1..], b)
    decreases |b|, |a|
  {
    if a[0] == b[0] {
      if a[1..] != [] {
        SubsequenceOfTail(a[1..], b);
      }
    } else {
      SubsequenceDropHead(a, b[1..]);
      if a[1..] != [] {
        SubsequenceOfTail(a[1..], b);
      }
    }
  }

  /** With an empty search box and "All Statuses", the whole list is shown. */
  lemma {:induction false} EmptyFilterKeepsAll(entries: seq<Entry>)
    ensures FilterAttendance(entries, "", AllStatuses) == entries
    decreases |entries|
  {
    if entries != [] {
      EmptyOccursEverywhere(Lower(entries[0].studentId));
      EmptyFilterKeepsAll(entries[1..]);
      assert entries == [entries[0]] + entries[1..];
    }
  }

  /** The search ignores the case of what was typed. */
  lemma SearchIgnoresInputCase(entries: seq<Entry>, a: string, b: string, statusFilter: string)
    requires Lower(a) == Lower(b)
    ensures FilterAttendance(entries, a, statusFilter) == FilterAttendance(entries, b, statusFilter)
  {
  }

  /** The masterlist's search test on a student. */
  predicate StudentMatches(needle: string, s: Student) {
    MatchesSearch(needle, s.id, s.fname, s.yearLevel, s.course)
  }

  function KeepStudents(students: seq<Student>, needle: string): (r: seq<Student>)
    ensures |r| <= |students|
    ensures forall s :: s in r <==> s in students && StudentMatches(needle, s)
    ensures r == Flatten(seq(|students|, i requires 0 <= i < |students| =>
                   if StudentMatches(needle, students[i]) then [students[i]] else []))
    decreases |students|
  {
    if students == [] then []
    else
      var rest := KeepStudents(students[1..], needle);
      assert students == [students[0]] + students[1..];
      var parts := seq(|students|, i requires 0 <= i < |students| =>
                     if StudentMatches(needle, students[i]) then [students[i]] else []);
      assert parts[1..] == seq(|students[1..]|, i requires 0 <= i < |students[1..]| =>
                             if StudentMatches(needle, students[1..][i]) then [students[1..][i]] else []);
      parts[0] + rest
  }

  /** The selection of `filter_masterlist_table`: the same four-field search,
      with no status test. */
  function FilterMasterlist(students: seq<Student>, searchText: string): (r: seq<Student>)
    ensures forall s :: s in r <==>
              && s in students
              && (|| Contains(Lower(s.id), Lower(searchText)) || Contains(Lower(s.fname), Lower(searchText))
                  || Contains(Lower(s.yearLevel), Lower(searchText)) || Contains(Lower(s.course), Lower(searchText)))
    ensures r == Flatten(seq(|students|, i requires 0 <= i < |students| =>
                   if StudentMatches(Lower(searchText), students[i]) then [students[i]] else []))
  {
    KeepStudents(students, Lower(searchText))
  }

  /** On a freshly snapshotted record, the attendance search under "All
      Statuses" and the masterlist search pick the same students, in the
      same order: both apply one search test to the same four fields. */
  lemma {:induction false} SearchAgreesWithMasterlist(students: seq<Student>, searchText: string)
    ensures FilterAttendance(AbsentEntries(students), searchText, AllStatuses)
         == AbsentEntries(FilterMasterlist(students, searchText))
    decreases |students|
  {
    if students != [] {
      var needle := Lower(searchText);
      var head := students[0];
      var tail := students[1..];
      var entries := AbsentEntries(students);
      SearchAgreesWithMasterlist(tail, searchText);
      assert entries[0] == AbsentEntry(head);
      assert entries[1..] == AbsentEntries(tail);
      assert Keeps(needle, AllStatuses, AbsentEntry(head)) == StudentMatches(needle, head);
      var kept := KeepStudents(tail, needle);
      if StudentMatches(needle, head) {
        AbsentEntriesCons(head, kept);
      }
    }
  }

  lemma AbsentEntriesCons(s: Student, rest: seq<Student>)
    ensures AbsentEntries([s] + rest) == [AbsentEntry(s)] + AbsentEntries(rest)
  {
  }
}

=== FILE: tables.dfy ===
/** The four tables of the attendance database (Students, Events,
    AttendanceRecords, Attendance) held as immutable values, together with the
    constraints their schema declares: primary keys, foreign keys and the
    unique key on (record_id, student_id). */
module Tables {

  datatype Option<T> = None | Some(value: T)

  /** An instant as the database server's NOW() or CURRENT_TIMESTAMP reports it. */
  type Time = int

  /** A calendar day, as the application's clock reports it. */
  type Date = int

  /** The values of the Attendance.status column. */
  datatype Status = Present | Absent | Excused

  /** The spelling of a status in the database and in the status drop-downs. */
  function StatusName(s: Status): (n: string)
    ensures n in AttendanceStatuses
  {
    match s
    case Present => "Present"
    case Absent => "Absent"
    case Excused => "Excused"
  }

  /** The configured status options, in drop-down order. */
  const AttendanceStatuses: seq<string> := ["Present", "Absent", "Excused"]

  /** Every configured option names exactly one status. */
  lemma StatusNamesAreTheDomain()
    ensures forall n :: n in AttendanceStatuses ==> exists s: Status :: StatusName(s) == n
    ensures forall s: Status, t: Status :: StatusName(s) == StatusName(t) ==> s == t
  {
    assert StatusName(Present) == AttendanceStatuses[0];
    assert StatusName(Absent) == AttendanceStatuses[1];
    assert StatusName(Excused) == AttendanceStatuses[2];
  }

  /** A row of Students; `id` is the primary key. */
  datatype Student = Student(id: string, fname: string, yearLevel: string, course: string)

  /** A row of Events; `id` is assigned by AUTO_INCREMENT. */
  datatype Event = Event(id: nat, name: string, date: Date)

  /** A row of AttendanceRecords, owned by the event `eventId`. */
  datatype Record = Record(id: nat, name: string, eventId: nat, createdAt: Time)

  /** The columns of an Attendance row that the read queries return: the
      student's copied attributes, the status and the nullable timestamp. */
  datatype Entry = Entry(studentId: string, fname: string, yearLevel: string, course: string,
                         status: Status, timestamp: Option<Time>)

  /** The entry a fresh snapshot makes for a student. */
  function AbsentEntry(s: Student): Entry {
    Entry(s.id, s.fname, s.yearLevel, s.course, Absent, None)
  }

  function AbsentEntries(students: seq<Student>): (r: seq<Entry>)
    ensures |r| == |students|
    ensures forall i :: 0 <= i < |students| ==> r[i] == AbsentEntry(students[i])
  {
    seq(|students|, i requires 0 <= i < |students| => AbsentEntry(students[i]))
  }

  /** The concatenation of `parts`, in order. A query's result is written as
      the concatenation of what each row contributes: one item if the row is
      selected, nothing otherwise. */
  function Flatten<T>(parts: seq<seq<T>>): seq<T>
    decreases |parts|
  {
    if parts == [] then [] else parts[0] + Flatten(parts[1..])
  }

  /** A row of Attendance: an entry under the record `recordId`. */
  datatype Row = Row(recordId: nat, entry: Entry)

  /** The whole database. `nextEventId` and `nextRecordId` are the tables'
      AUTO_INCREMENT counters; Python's list order of a SELECT is the order of
      the sequences. */
  datatype Db = Db(students: seq<Student>, events: seq<Event>, records: seq<Record>,
                   attendance: seq<Row>, nextEventId: nat, nextRecordId: nat)

  /** A freshly created schema: no rows, counters at their first value. */
  const EmptyDb: Db := Db([], [], [], [], 1, 1)

  /** A database operation's new state together with what it returned. */
  datatype Step<T> = Step(db: Db, result: T)

  function StudentIds(students: seq<Student>): set<string> {
    set s | s in students :: s.id
  }

  function EventIds(events: seq<Event>): set<nat> {
    set e | e in events :: e.id
  }

  function RecordIds(records: seq<Record>): set<nat> {
    set r | r in records :: r.id
  }

  predicate DistinctStudentIds(students: seq<Student>) {
    forall i, j :: 0 <= i < j < |students| ==> students[i].id != students[j].id
  }

  predicate DistinctEventIds(events: seq<Event>) {
    forall i, j :: 0 <= i < j < |events| ==> events[i].id != events[j].id
  }

  predicate DistinctRecordIds(records: seq<Record>) {
    forall i, j :: 0 <= i < j < |records| ==> records[i].id != records[j].id
  }

  /** The key of the unique index `unique_attendance`. */
  function Key(w: Row): (nat, string) {
    (w.recordId, w.entry.studentId)
  }

  predicate UniqueKeys(rows: seq<Row>) {
    forall i, j :: 0 <= i < j < |rows| ==> Key(rows[i]) != Key(rows[j])
  }

  /** Record `rid` exists and belongs to event `eid`: the join
      `Attendance a JOIN AttendanceRecords ar ON a.record_id = ar.record_id
      WHERE ar.event_id = eid` keeps a row of record `rid` exactly then. A
      missing event id (Python's None) compares as SQL NULL and matches no
      record. */
  predicate InEvent(records: seq<Record>, rid: nat, eid: Option<nat>) {
    eid.Some? && exists i :: 0 <= i < |records| && records[i].id == rid && records[i].eventId == eid.value
  }

  /** The constraints of the schema, plus the AUTO_INCREMENT counters lying
      above every id they have handed out (ids start at 1). */
  function Wf(db: Db): (ok: bool)
    ensures ok ==> db.nextEventId !in EventIds(db.events) && db.nextRecordId !in RecordIds(db.records)
    ensures ok ==> forall i, j :: 0 <= i < |db.attendance| && 0 <= j < |db.attendance| ==>
                     (Key(db.attendance[i]) == Key(db.attendance[j]) ==> i == j)
  {
    && DistinctStudentIds(db.students)
    && DistinctEventIds(db.events)
    && DistinctRecordIds(db.records)
    && 1 <= db.nextEventId && 1 <= db.nextRecordId
    && (forall e :: e in db.events ==> 1 <= e.id < db.nextEventId)
    && (forall r :: r in db.records ==> 1 <= r.id < db.nextRecordId && r.eventId in EventIds(db.events))
    && (forall w :: w in db.attendance ==>
          w.recordId in RecordIds(db.records) && w.entry.studentId in StudentIds(db.students))
    && UniqueKeys(db.attendance)
  }

  lemma EmptyDbWf()
    ensures Wf(EmptyDb)
  {
  }
}

=== FILE: text.dfy ===
/** Text helpers the attendance screens rely on: Python's `str.strip()`,
    `str.lower()` and the substring test `needle in haystack`. */
module Text {

  /** The characters Python's `str.isspace()` accepts. */
  predicate IsSpace(c: char) {
    || c == ' '
    || ('\t' <= c <= '\r')
    || ('\U{1C}' <= c <= '\U{1F}')
    || c == '\U{85}' || c == '\U{A0}' || c == '\U{1680}'
    || ('\U{2000}' <= c <= '\U{200A}')
    || c == '\U{2028}' || c == '\U{2029}' || c == '\U{202F}' || c == '\U{205F}' || c == '\U{3000}'
  }

  predicate AllSpace(s: string) {
    forall i :: 0 <= i < |s| ==> IsSpace(s[i])
  }

  /** Neither end of `s` is white space. */
  predicate Stripped(s: string) {
    s == [] || (!IsSpace(s[0]) && !IsSpace(s[|s| - 1]))
  }

  /** Drops leading white space. */
  function TrimLeft(s: string): (r: string)
    ensures |r| <= |s| && r == s[|s| - |r|..]
    ensures AllSpace(s[..|s| - |r|])
    ensures r == [] || !IsSpace(r[0])
  {
    if |s| > 0 && IsSpace(s[0]) then
      var t := s[1..];
      var r := TrimLeft(t);
      assert t[|t| - |r|..] == s[|s| - |r|..];
      assert AllSpace(s[..|s| - |r|]) by {
        var cut := s[..|s| - |r|];
        forall i | 0 <= i < |cut| ensures IsSpace(cut[i]) {
          if i > 0 { assert cut[i] == t[..|t| - |r|][i - 1]; }
        }
      }
      r
    else s
  }

  /** Drops trailing white space. */
  function TrimRight(s: string): (r: string)
    ensures |r| <= |s| && r == s[..|r|]
    ensures AllSpace(s[|r|..])
    ensures r == [] || !IsSpace(r[|r| - 1])
  {
    if |s| > 0 && IsSpace(s[|s| - 1]) then
      var r := TrimRight(s[..|s| - 1]);
      assert forall i :: |r| <= i < |s| - 1 ==> s[i] == s[..|s| - 1][i];
      r
    else s
  }

  /** Python's `s.strip()`: the longest infix of `s` with no white space at
      either end, obtained by cutting white space only. */
  function Strip(s: string): (r: string)
    ensures |r| <= |s|
    ensures Stripped(r)
  {
    var l := TrimLeft(s);
    var r := TrimRight(l);
    assert Stripped(r) by {
      if r != [] {
        assert r[0] == l[0];
      }
    }
    r
  }

  /** What `Strip` cut away from either end of `s` is white space, and what
      it kept is an unchanged infix of `s`. */
  lemma StripShape(s: string) returns (i: nat)
    ensures i + |Strip(s)| <= |s|
    ensures Strip(s) == s[i..i + |Strip(s)|]
    ensures AllSpace(s[..i]) && AllSpace(s[i + |Strip(s)|..])
  {
    var l := TrimLeft(s);
    var r := TrimRight(l);
    i := |s| - |l|;
    assert r == s[i..i + |r|];
    forall k | i + |r| <= k < |s| ensures IsSpace(s[k]) {
      assert s[k] == l[|r|..][k - i - |r|];
    }
  }

  /** A stripped name is empty exactly when the input was blank (only white
      space), which is what the "please enter a name" guards test. */
  lemma StripEmptyIffBlank(s: string)
    ensures Strip(s) == [] <==> AllSpace(s)
  {
    var r := Strip(s);
    var i := StripShape(s);
    if r == [] {
      forall k | 0 <= k < |s| ensures IsSpace(s[k]) {
        if k < i { assert s[k] == s[..i][k]; } else { assert s[k] == s[i..][k - i]; }
      }
    } else {
      assert s[i] == r[0];
    }
  }

  /** Stripping twice changes nothing more. */
  lemma StripIdempotent(s: string)
    ensures Strip(Strip(s)) == Strip(s)
  {
    var r := Strip(s);
    assert TrimLeft(r) == r;
    assert TrimRight(r) == r;
  }

  /** Leading white space makes no difference to `TrimLeft`. */
  lemma {:induction false} TrimLeftSkipsSpace(pre: string, s: string)
    requires AllSpace(pre)
    ensures TrimLeft(pre + s) == TrimLeft(s)
    decreases |pre|
  {
    if pre != [] {
      assert (pre + s)[0] == pre[0] && IsSpace(pre[0]);
      assert (pre + s)[1..] == pre[1..] + s;
      assert AllSpace(pre[1..]) by {
        forall k | 0 <= k < |pre| - 1 ensures IsSpace(pre[1..][k]) { assert pre[1..][k] == pre[k + 1]; }
      }
      TrimLeftSkipsSpace(pre[1..], s);
      assert TrimLeft(pre + s) == TrimLeft(pre[1..] + s);
    } else {
      assert pre + s == s;
    }
  }

  /** Trailing white space makes no difference to `TrimRight`. */
  lemma {:induction false} TrimRightSkipsSpace(s: string, post: string)
    requires AllSpace(post)
    ensures TrimRight(s + post) == TrimRight(s)
    decreases |post|
  {
    if post != [] {
      var p := post[..|post| - 1];
      assert (s + post)[|s + post| - 1] == post[|post| - 1] && IsSpace(post[|post| - 1]);
      assert (s + post)[..|s + post| - 1] == s + p;
      assert AllSpace(p) by {
        forall k | 0 <= k < |p| ensures IsSpace(p[k]) { assert p[k] == post[k]; }
      }
      TrimRightSkipsSpace(s, p);
      assert TrimRight(s + post) == TrimRight(s + p);
    } else {
      assert s + post == s;
    }
  }

  /** Once a non-space character is met, `TrimLeft` keeps everything after it. */
  lemma {:induction false} TrimLeftAppend(s: string, post: string)
    requires !AllSpace(s)
    ensures TrimLeft(s + post) == TrimLeft(s) + post
    decreases |s|
  {
    assert (s + post)[0] == s[0];
    if IsSpace(s[0]) {
      assert (s + post)[1..] == s[1..] + post;
      assert !AllSpace(s[1..]) by {
        var k :| 0 <= k < |s| && !IsSpace(s[k]);
        assert s[1..][k - 1] == s[k];
      }
      TrimLeftAppend(s[1..], post);
    }
  }

  /** White space around a text does not change what `Strip` returns: a
      payload with a trailing newline strips to the same id. */
  lemma StripPadded(pre: string, s: string, post: string)
    requires AllSpace(pre) && AllSpace(post)
    ensures Strip(pre + s + post) == Strip(s)
  {
    assert pre + s + post == pre + (s + post);
    TrimLeftSkipsSpace(pre, s + post);
    if AllSpace(s) {
      StripBlankThenSpace(s, post);
    } else {
      TrimLeftAppend(s, post);
      TrimRightSkipsSpace(TrimLeft(s), post);
    }
  }

  /** White space followed by white space strips to nothing, as the first
      part alone does. */
  lemma StripBlankThenSpace(s: string, post: string)
    requires AllSpace(s) && AllSpace(post)
    ensures Strip(s + post) == Strip(s) == []
  {
    TrimLeftSkipsSpace(s, post);
    TrimLeftSkipsSpace(post, []);
    assert post + [] == post;
    StripEmptyIffBlank(s);
  }

  function LowerChar(c: char): char {
    if 'A' <= c <= 'Z' then (c as int + 32) as char else c
  }

  predicate IsUpper(c: char) {
    'A' <= c <= 'Z'
  }

  /** `s.lower()` on the ASCII letters. */
  function Lower(s: string): (r: string)
    ensures |r| == |s|
    ensures forall i :: 0 <= i < |r| ==> !IsUpper(r[i])
    ensures forall i :: 0 <= i < |r| ==> (r[i] == s[i] <==> !IsUpper(s[i]))
    ensures forall i :: 0 <= i < |s| && IsUpper(s[i]) ==>
              'a' <= r[i] <= 'z' && r[i] as int - 'a' as int == s[i] as int - 'A' as int
  {
    seq(|s|, i requires 0 <= i < |s| => LowerChar(s[i]))
  }

  /** The `needle` occupies `haystack[k..k + |needle|]`. */
  predicate OccursAt(haystack: string, needle: string, k: int)
    requires 0 <= k && k + |needle| <= |haystack|
  {
    haystack[k..k + |needle|] == needle
  }

  /** Python's `needle in haystack` on strings: a needle longer than the
      haystack never occurs, and every string occurs in itself. */
  function Contains(haystack: string, needle: string): (r: bool)
    ensures r ==> |needle| <= |haystack|
    ensures haystack == needle ==> r
  {
    assert haystack == needle ==> OccursAt(haystack, needle, 0);
    exists k :: 0 <= k && k + |needle| <= |haystack| && OccursAt(haystack, needle, k)
  }

  /** The empty string occurs in every string; this is why an empty search
      box matches every row. */
  lemma EmptyOccursEverywhere(haystack: string)
    ensures Contains(haystack, [])
  {
    assert OccursAt(haystack, [], 0);
  }
}

=== FILE: window.dfy ===
/** The main window's bookkeeping: which event and which record are
    current, the blank-name guards in front of event and record creation,
    the lookups by name behind double-clicking a table row, and the choice
    of rows the attendance table's filter works on. */
module Window {
  import opened Text
  import opened Tables
  import opened Lifecycle
  import opened Search

  /** The database together with the window's current event and record. */
  datatype App = App(db: Db, currentEventId: Option<nat>, currentRecordId: Option<nat>)

  /** Python truthiness of an optional id: None and 0 both count as unset. */
  predicate IsSet(id: Option<nat>) {
    id.Some? && id.value != 0
  }

  /** The message box an action ends with. */
  datatype Notice =
    | EventCreated(eventName: string)
    | RecordCreated(recordName: string)
    | EnterEventName
    | EnterRecordName
    | EventNotFound
    | RecordNotFound
    | Quiet

  datatype Outcome = Outcome(app: App, notice: Notice)

  /** `add_event`: the typed name is stripped; a blank name is refused with
      a warning and nothing changes, otherwise the event is created under the
      stripped name. */
  function AddEvent(app: App, input: string, today: Date): (r: Outcome)
    ensures r.app == app <==> AllSpace(input)
    ensures AllSpace(input) ==> r.notice == EnterEventName
    ensures !AllSpace(input) ==>
              && r.notice == EventCreated(Strip(input))
              && |r.app.db.events| == |app.db.events| + 1 && r.app.db.events[..|app.db.events|] == app.db.events
              && r.app.db.events[|app.db.events|].name == Strip(input) && r.app.db.events[|app.db.events|].date == today
              && r.app.db.students == app.db.students && r.app.db.records == app.db.records
              && r.app.db.attendance == app.db.attendance
    ensures !AllSpace(input) ==> r.app.db == CreateEvent(app.db, Strip(input), today).db
    ensures r.app.currentEventId == app.currentEventId && r.app.currentRecordId == app.currentRecordId
    ensures Wf(app.db) ==> Wf(r.app.db)
  {
    var name := Strip(input);
    StripEmptyIffBlank(input);
    if name != [] then
      Outcome(app.(db := CreateEvent(app.db, name, today).db), EventCreated(name))
    else Outcome(app, EnterEventName)
  }

  /** `add_attendance_record`: a record is created under the stripped name
      only when that name is not blank and an event is current; otherwise a
      warning and no change. The success message is shown whatever the data
      layer reported. */
  function AddAttendanceRecord(app: App, input: string, now: Time, fault: SnapshotFault): (r: Outcome)
    ensures r.notice.RecordCreated? <==> !AllSpace(input) && IsSet(app.currentEventId)
    ensures !r.notice.RecordCreated? ==> r == Outcome(app, EnterRecordName)
    ensures r.notice.RecordCreated? ==>
              && r.notice.recordName == Strip(input)
              && app.db.attendance <= r.app.db.attendance
              && r.app.db.students == app.db.students && r.app.db.events == app.db.events
    ensures r.notice.RecordCreated? && fault.NoFault? && Wf(app.db) && HasEvent(app.db, app.currentEventId.value) ==>
              Record(app.db.nextRecordId, Strip(input), app.currentEventId.value, now) in r.app.db.records
    ensures r.notice.RecordCreated? ==>
              r.app.db == CreateAttendanceRecord(app.db, Strip(input), app.currentEventId.value, now, fault).db
    ensures r.app.currentEventId == app.currentEventId && r.app.currentRecordId == app.currentRecordId
    ensures Wf(app.db) ==> Wf(r.app.db)
  {
    var name := Strip(input);
    StripEmptyIffBlank(input);
    if name != [] && IsSet(app.currentEventId) then
      var created := CreateAttendanceRecord(app.db, name, app.currentEventId.value, now, fault);
      Outcome(app.(db := created.db), RecordCreated(name))
    else Outcome(app, EnterRecordName)
  }

  /** The id of the first event called `name`, scanning in table order. */
  function FindEventByName(events: seq<Event>, name: string): (r: Option<nat>)
    ensures r.None? <==> forall i :: 0 <= i < |events| ==> events[i].name != name
    ensures r.Some? ==> exists i :: 0 <= i < |events| && events[i].name == name && events[i].id == r.value &&
                                    forall j :: 0 <= j < i ==> events[j].name != name
    ensures r.Some? ==> r.value in EventIds(events)
    decreases |events|
  {
    if events == [] then None
    else if events[0].name == name then Some(events[0].id)
    else
      var rest := FindEventByName(events[1..], name);
      assert forall i :: 0 < i < |events| ==> events[i] == events[1..][i - 1];
      rest
  }

  /** The id of the first record called `name`, scanning in table order. */
  function FindRecordByName(records: seq<Record>, name: string): (r: Option<nat>)
    ensures r.None? <==> forall i :: 0 <= i < |records| ==> records[i].name != name
    ensures r.Some? ==> exists i :: 0 <= i < |records| && records[i].name == name && records[i].id == r.value &&
                                    forall j :: 0 <= j < i ==> records[j].name != name
    decreases |records|
  {
    if records == [] then None
    else if records[0].name == name then Some(records[0].id)
    else
      var rest := FindRecordByName(records[1..], name);
      assert forall i :: 0 < i < |records| ==> records[i] == records[1..][i - 1];
      rest
  }

  /** `view_event_records`: the double-clicked name is looked up among all
      events; the first match becomes the current event (the current record
      is left as it was). Without a match nothing changes. */
  function ViewEventRecords(app: App, name: string): (r: Outcome)
    ensures r.app.db == app.db && r.app.currentRecordId == app.currentRecordId
    ensures r.notice == Quiet ==>
              exists i :: 0 <= i < |app.db.events| && app.db.events[i].name == name &&
                          r.app.currentEventId == Some(app.db.events[i].id) &&
                          forall j :: 0 <= j < i ==> app.db.events[j].name != name
    ensures r.notice != Quiet ==> r == Outcome(app, EventNotFound)
    ensures (forall i :: 0 <= i < |app.db.events| ==> app.db.events[i].name != name) ==> r.notice == EventNotFound
    ensures Wf(app.db) && (exists i :: 0 <= i < |app.db.events| && app.db.events[i].name == name) ==> r.notice == Quiet
  {
    var found := FindEventByName(app.db.events, name);
    if IsSet(found) then Outcome(app.(currentEventId := found), Quiet)
    else Outcome(app, EventNotFound)
  }

  /** Record `x` is called `name` and belongs to event `eid`. */
  predicate NamedInEvent(x: Record, eid: nat, name: string) {
    x.eventId == eid && x.name == name
  }

  /** `view_record_students`: the double-clicked name is looked up among the
      current event's records; the first match, in table order, becomes the
      current record. Without a match (or without a current event) nothing
      changes. */
  function ViewRecordStudents(app: App, name: string): (r: Outcome)
    ensures r.app.db == app.db && r.app.currentEventId == app.currentEventId
    ensures r.notice == Quiet ==>
              app.currentEventId.Some? &&
              exists i :: 0 <= i < |app.db.records| && NamedInEvent(app.db.records[i], app.currentEventId.value, name) &&
                          r.app.currentRecordId == Some(app.db.records[i].id) &&
                          forall j :: 0 <= j < i ==> !NamedInEvent(app.db.records[j], app.currentEventId.value, name)
    ensures r.notice != Quiet ==> r == Outcome(app, RecordNotFound)
    ensures app.currentEventId.None? ==> r == Outcome(app, RecordNotFound)
    ensures Wf(app.db) && app.currentEventId.Some? &&
            (exists i :: 0 <= i < |app.db.records| && NamedInEvent(app.db.records[i], app.currentEventId.value, name)) ==>
              r.notice == Quiet
  {
    var found := FindRecordByName(GetRecordsForEvent(app.db.records, app.currentEventId), name);
    // With no current event the query compares with NULL and lists nothing.
    if app.currentEventId.None? then Outcome(app, RecordNotFound)
    else
      FoundIsFirst(app.db.records, app.currentEventId.value, name);
      if IsSet(found) then Outcome(app.(currentRecordId := found), Quiet)
      else Outcome(app, RecordNotFound)
  }

  /** Looking a name up among an event's records finds something exactly
      when the event has a record of that name, and then finds the first. */
  lemma FoundIsFirst(records: seq<Record>, eid: nat, name: string)
    ensures var found := FindRecordByName(GetRecordsForEvent(records, Some(eid)), name);
            && (found.Some? <==> exists i :: 0 <= i < |records| && NamedInEvent(records[i], eid, name))
            && (found.Some? ==> exists i :: 0 <= i < |records| && NamedInEvent(records[i], eid, name) &&
                                  found.value == records[i].id &&
                                  forall j :: 0 <= j < i ==> !NamedInEvent(records[j], eid, name))
  {
    var candidates := GetRecordsForEvent(records, Some(eid));
    var found := FindRecordByName(candidates, name);
    if found.Some? {
      var m :| 0 <= m < |candidates| && candidates[m].name == name && candidates[m].id == found.value;
      assert candidates[m] in candidates;
      var k :| 0 <= k < |records| && records[k] == candidates[m];
      var i := FirstNamedInEvent(records, eid, name, k);
      FindRecordInEvent(records, eid, name, i);
    } else if k :| 0 <= k < |records| && NamedInEvent(records[k], eid, name) {
      var i := FirstNamedInEvent(records, eid, name, k);
      FindRecordInEvent(records, eid, name, i);
    }
  }

  /** The first record of event `eid` called `name`, at or before index `k`. */
  lemma {:induction false} FirstNamedInEvent(records: seq<Record>, eid: nat, name: string, k: nat) returns (i: nat)
    requires k < |records| && NamedInEvent(records[k], eid, name)
    ensures i <= k && NamedInEvent(records[i], eid, name)
    ensures forall j :: 0 <= j < i ==> !NamedInEvent(records[j], eid, name)
    decreases k
  {
    if j :| 0 <= j < k && NamedInEvent(records[j], eid, name) {
      i := FirstNamedInEvent(records, eid, name, j);
    } else {
      i := k;
    }
  }

  /** Looking a name up among an event's records lands on the first record
      of that event with that name, in table order. */
  lemma {:induction false} FindRecordInEvent(records: seq<Record>, eid: nat, name: string, i: nat)
    requires i < |records| && NamedInEvent(records[i], eid, name)
    requires forall j :: 0 <= j < i ==> !NamedInEvent(records[j], eid, name)
    ensures FindRecordByName(GetRecordsForEvent(records, Some(eid)), name) == Some(records[i].id)
    decreases i
  {
    var cands := GetRecordsForEvent(records, Some(eid));
    var rest := GetRecordsForEvent(records[1..], Some(eid));
    var x := records[0];
    assert cands == (if x.eventId == eid then [x] else []) + rest;
    if i > 0 {
      assert !NamedInEvent(x, eid, name);
      FindRecordInEvent(records[1..], eid, name, i - 1);
      if x.eventId == eid {
        assert cands[1..] == rest;
      } else {
        assert cands == rest;
      }
    }
  }

  /** The rows `filter_attendance_table` shows: those of the current record if
      one is set, else those of the current event if one is set, filtered by
      the search text and status filter; with neither set it returns early
      and the table is left as it was (None). */
  function AttendanceView(app: App, searchText: string, statusFilter: string): (r: Option<seq<Entry>>)
    ensures r.None? <==> !IsSet(app.currentRecordId) && !IsSet(app.currentEventId)
    ensures IsSet(app.currentRecordId) ==>
              forall e :: e in r.value <==>
                e in GetStudentsForRecord(app.db, app.currentRecordId.value) && Keeps(Lower(searchText), statusFilter, e)
    ensures !IsSet(app.currentRecordId) && IsSet(app.currentEventId) ==>
              forall e :: e in r.value <==>
                e in GetAttendanceForEvent(app.db, app.currentEventId.value) && Keeps(Lower(searchText), statusFilter, e)
    ensures IsSet(app.currentRecordId) ==>
              r.value == EntriesWhere(app.db.attendance, (w: Row) =>
                           w.recordId == app.currentRecordId.value && Keeps(Lower(searchText), statusFilter, w.entry))
    ensures !IsSet(app.currentRecordId) && IsSet(app.currentEventId) ==>
              r.value == EntriesWhere(app.db.attendance, (w: Row) =>
                           InEvent(app.db.records, w.recordId, Some(app.currentEventId.value)) &&
                           Keeps(Lower(searchText), statusFilter, w.entry))
  {
    if IsSet(app.currentRecordId) then
      RecordViewRows(app.db, app.currentRecordId.value, searchText, statusFilter);
      Some(FilterAttendance(GetStudentsForRecord(app.db, app.currentRecordId.value), searchText, statusFilter))
    else if IsSet(app.currentEventId) then
      EventViewRows(app.db, app.currentEventId.value, searchText, statusFilter);
      Some(FilterAttendance(GetAttendanceForEvent(app.db, app.currentEventId.value), searchText, statusFilter))
    else None
  }

  /** Filtering the rows a query selected is one selection with the query's
      test and the filter's test at once. */
  lemma {:induction false} FilterSelection(rows: seq<Row>, keep: Row -> bool, needle: string, statusFilter: string)
    ensures KeepMatching(EntriesWhere(rows, keep), needle, statusFilter) ==
            EntriesWhere(rows, (w: Row) => keep(w) && Keeps(needle, statusFilter, w.entry))
    decreases |rows|
  {
    if rows != [] {
      var both := (w: Row) => keep(w) && Keeps(needle, statusFilter, w.entry);
      FilterSelection(rows[1..], keep, needle, statusFilter);
      EntriesWhereHead(rows, keep);
      EntriesWhereHead(rows, both);
      if keep(rows[0]) {
        KeepMatchingHead(rows[0].entry, EntriesWhere(rows[1..], keep), needle, statusFilter);
      } else {
        assert EntriesWhere(rows, keep) == EntriesWhere(rows[1..], keep);
      }
    }
  }

  /** The attendance table under a current record: the rows of that record
      that pass the search and the status filter, one entry per row, in
      table order. */
  lemma RecordViewRows(db: Db, rid: nat, searchText: string, statusFilter: string)
    ensures FilterAttendance(GetStudentsForRecord(db, rid), searchText, statusFilter) ==
            EntriesWhere(db.attendance, (w: Row) => w.recordId == rid && Keeps(Lower(searchText), statusFilter, w.entry))
  {
    var keep := (w: Row) => w.recordId == rid;
    var needle := Lower(searchText);
    FilterSelection(db.attendance, keep, needle, statusFilter);
    EntriesWhereSameTest(db.attendance, (w: Row) => keep(w) && Keeps(needle, statusFilter, w.entry),
                         (w: Row) => w.recordId == rid && Keeps(Lower(searchText), statusFilter, w.entry));
  }

  /** The attendance table under a current event alone: the rows of the
      event's records that pass the search and the status filter, one entry
      per row, in table order. */
  lemma EventViewRows(db: Db, eid: nat, searchText: string, statusFilter: string)
    ensures FilterAttendance(GetAttendanceForEvent(db, eid), searchText, statusFilter) ==
            EntriesWhere(db.attendance, (w: Row) =>
              InEvent(db.records, w.recordId, Some(eid)) && Keeps(Lower(searchText), statusFilter, w.entry))
  {
    var keep := (w: Row) => InEvent(db.records, w.recordId, Some(eid));
    var needle := Lower(searchText);
    FilterSelection(db.attendance, keep, needle, statusFilter);
    EntriesWhereSameTest(db.attendance, (w: Row) => keep(w) && Keeps(needle, statusFilter, w.entry),
                         (w: Row) => InEvent(db.records, w.recordId, Some(eid)) && Keeps(Lower(searchText), statusFilter, w.entry));
  }

  /** A blank search under "All Statuses" shows the current context's rows
      unfiltered: the current record's if set, else the current event's. */
  lemma BlankSearchShowsContext(app: App)
    requires IsSet(app.currentRecordId) || IsSet(app.currentEventId)
    ensures AttendanceView(app, "", AllStatuses) ==
            Some(if IsSet(app.currentRecordId) then GetStudentsForRecord(app.db, app.currentRecordId.value)
                 else GetAttendanceForEvent(app.db, app.currentEventId.value))
  {
    if IsSet(app.currentRecordId) {
      EmptyFilterKeepsAll(GetStudentsForRecord(app.db, app.currentRecordId.value));
    } else {
      EmptyFilterKeepsAll(GetAttendanceForEvent(app.db, app.currentEventId.value));
    }
  }

  /** Two events with the same name: the lookup always lands on the earlier
      one, so the later one can never be opened by name. */
  lemma DuplicateEventNameOpensFirst(app: App, i: nat, k: nat)
    requires Wf(app.db)
    requires i < k < |app.db.events| && app.db.events[i].name == app.db.events[k].name
    ensures ViewEventRecords(app, app.db.events[k].name).app.currentEventId != Some(app.db.events[k].id)
  {
    var events := app.db.events;
    var name := events[k].name;
    var r := ViewEventRecords(app, name);
    assert r.notice == Quiet;
    var m :| 0 <= m < |events| && events[m].name == name && r.app.currentEventId == Some(events[m].id) &&
             forall j :: 0 <= j < m ==> events[j].name != name;
    assert m <= i;
  }
}
